=== FILE: README.md ===
# go-socketio09 protocol engine, modelled in Dafny

This project models the protocol engine of go-socketio09, a Go client for
the socket.io 0.9 wire protocol. The model covers these parts:

- **Frame codec.** A `Message` becomes wire text such as `5:::{"name":…,"args":[…]}`
  or `5:7+::{…}`, and inbound wire text becomes a `Message`.
- **Frame-type code table.** The digits `0`–`8`.
- **Ack correlator.** It hands out ack ids and keeps the waiter of each
  pending acked emit.
- **Handler registry.** Callbacks are validated by their signature and fired
  per event.
- **Connection.** This covers the liveness flag, the bounded outbound queue
  with its backpressure rule, `CloseChannel`, `send`/`Emit`/`EmitWithAck`,
  and one iteration each of the reader, writer and heartbeat loops.
- **Handshake and websocket setup.** The handshake reply is parsed. From it
  the transport timings and the dial address are derived. Inbound websocket
  messages are checked.

Everything is pure: a loop iteration is a function from the client's state
to its next state. Each iteration also produces a list of observable actions:
frames written, events fired, and payloads delivered to ack waiters.

Go behaviour that matters here is written out:

- `strconv.Itoa` and `strconv.Atoi` are modelled in full. `Atoi` returns 0
  on a syntax error and clamps to the int64 bound on a range error.
- `strings.IndexByte`, `Split` and `Replace(…, 1)` are modelled.
- int64 nanosecond durations wrap, and integer division truncates.
- A slice expression that would panic becomes a precondition.

Modules follow the source files:

- `Spec`
- `Messages`
- `Errors`
- `Encoder`, `Decoder`
- `Acks`
- `Handlers`
- `Emitter`
- `Connection`
- `Handshake`
- `Transport`

`GoStrconv` and `GoStrings` hold the parts of Go's standard library the core
relies on.

Parameters stand in for what the core cannot decide itself:

- **JSON.** `Decoder.EventJson` stands for unmarshalling an event object and
  re-marshalling its args. `Connection.ArgDecoder` stands for decoding a
  payload into a handler's parameter type. Args to send are given as
  `Connection.Args`: nil, marshalled text, or unmarshallable.
- **Reflection.** A callback is described by its `Handlers.Shape`.
- **Transport.** The outcome of a websocket read is an input. So is the
  outcome of a write, and of the handshake request. The dialler is a
  function from address to error.
- **Time.** The receive timeout is represented by whether a reply arrived
  in time.

Where the code's own comments or names suggest one thing and the code does
another, the model follows the code:

- **Short control frames.** The comment at decodeinboundmsg.go:23 calls
  `1::` the shortest possible packet, and frames under three characters are
  refused at decodeinboundmsg.go:24-26. But control frames (`0`, `1`, `2`)
  return at decodeinboundmsg.go:80-83, before that check runs. So they are
  accepted with no length check, and a one-character `1` decodes.
- **`CloseChannel` result.** The callers pass it a reason:
  `ErrorSocketOverflood` at socketioconnection.go:119, and the write error
  at socketioconnection.go:137. Yet it always returns nil. So the writer's
  overflow close returns no error, and neither does the reader's close on a
  transport error.
- **Send errors in `EmitWithAck`.** When `send` fails, `EmitWithAck`
  removes the waiter and then waits anyway. It does not return the send
  error (see Findings).

## Model

| member | source | states |
|---|---|---|
| Spec.Code | spec/spec.go:6-25 | every kind's code is a single digit 0–8 from which the kind is read back |
| Spec.CodeTableBijective | spec/spec.go:6-25 | exactly the digits 0–8 are codes, each of exactly one kind |
| Spec.CodeInjective | spec/spec.go:6-25 | distinct kinds have distinct codes |
| Spec.DistinguishedCodes | spec/spec.go:8-20 | Disconnect, Heartbeat, Event and Ack are `0`, `2`, `5`, `6`, the codes the loops test |
| GoStrconv.Wrap64 | websocketconnection.go:125-131 | int64 multiplication wraps: result in range, equal to the input when in range, congruent mod 2^64 |
| GoStrconv.GoQuo | websocketconnection.go:127 | Go's `/` truncates toward zero: the remainder takes the dividend's sign and is smaller than the divisor |
| GoStrconv.Itoa | encodeoutboundmsg.go:25 | the decimal form is non-empty, starts with `-` exactly for negatives, otherwise digits, and has no `+` |
| GoStrconv.Atoi | decodeinboundmsg.go:37 | only a numeral (optional sign, one or more digits) succeeds; a numeral whose value (sign times the positional value of its digits, so `007`, `+7` and `-0` included) is an int64 reads as that value without error, and one whose value is not is a range error; a non-numeral of at most 19 characters always is; a syntax error gives 0 and a range error clamps to the int64 bound of the sign; the value is always an int64 |
| GoStrconv.OverflowBeforeBadCharacter | decodeinboundmsg.go:37 | a digit run that overflows before a bad character is a range error clamped to MaxInt64, not a syntax error, though the text is no numeral |
| GoStrconv.AtoiItoa | decodeinboundmsg.go:37 | reading back the decimal form of any int64 gives that int64 without error |
| GoStrings.IndexByte | decodeinboundmsg.go:32 | the position of the first occurrence, -1 exactly when absent |
| GoStrings.Split | handshake.go:35 | at least one piece, no piece contains the separator |
| GoStrings.JoinSplit | handshake.go:35 | joining the pieces of a split gives the text back |
| GoStrings.SplitJoin | handshake.go:35 | splitting the join of separator-free pieces gives the pieces back |
| GoStrings.Index | websocketconnection.go:134 | the first position where the pattern occurs, -1 exactly when it occurs nowhere |
| GoStrings.ReplaceFirst | websocketconnection.go:134 | a text without the pattern is returned unchanged |
| GoStrings.ReplaceLeading | websocketconnection.go:134 | when the text starts with the pattern, only that leading copy is replaced |
| Encoder.EventObject | encodeoutboundmsg.go:25-27 | the event object has length 21 plus name and args, opens with `{`, closes with `]}`, and holds name and args verbatim at fixed offsets |
| Encoder.PlainEventFrame | encodeoutboundmsg.go:27 | a frame without ack id is the 4-character header `5:::` and the object |
| Encoder.AckedEventFrame | encodeoutboundmsg.go:25 | an acked frame is `5:`, the id, `+::`, the object, and its first `+` ends the id |
| Encoder.Encode | encodeoutboundmsg.go:16-34 | only Heartbeat and Event encode (anything else is the outbound-type error); Heartbeat is `2`; Event frames start with `5`, end with the object, and carry the id exactly when it is non-zero |
| Encoder.EventFrameEndsWithArrayClose | encodeoutboundmsg.go:25-27 | every encoded Event ends with `]}` |
| Decoder.InboundType | decodeinboundmsg.go:48-68 | accepted exactly for a first character among `0 1 2 5 6` other than a lone `5`, with the matching kind; the empty text and other codes are the inbound-type error, a lone `5` the invalid-packet error |
| Decoder.AckAndData | decodeinboundmsg.go:22-45 | frames under 3 characters are invalid; an Event's rest follows its 4-character header; an Ack's id is the numeral before its first `+` and its rest starts at that `+`; a bad numeral yields the number error |
| Decoder.Decode | decodeinboundmsg.go:71-108 | error cases by first character and length; control frames carry only their kind; never Noop; an Event decodes exactly when the JSON step accepts its object, with the name and args it returns and ack id 0; an Ack with a `+` decodes exactly when Atoi accepts its numeral, keeping the id and raw rest, and otherwise fails with Atoi's syntax or range error |
| Decoder.DecodeEvent | decodeinboundmsg.go:90-102 | an Event decodes exactly when the JSON step accepts its object: its name and args become the message, with ack id 0; a JSON error is returned as such |
| Decoder.DecodeAck | decodeinboundmsg.go:103-106 | with a `+` in the frame, an Ack decodes exactly when Atoi accepts the numeral before it, to that id and the text from the `+` on; otherwise Atoi's syntax or range error is returned |
| Decoder.NoopNeverDecoded | decodeinboundmsg.go:80-82 | no text decodes to Noop, so the Noop branches are dead |
| Decoder.EventRoundTrip | decodeinboundmsg.go:71-102 | an Event without ack id decodes back to its name, with its args wrapped in `[` `]` |
| Decoder.AckedEventHeaderMisread | decodeinboundmsg.go:28-30 | an Event that carries an ack id is not read back: the fixed 4-character header cuts into the id |
| Decoder.AckReplyDecodes | decodeinboundmsg.go:31-42 | the reply `6:::<id>+<payload>` decodes to an Ack with that id and args `+<payload>` |
| Acks.Empty | ackmanager.go:20-23 | a fresh table has no listeners and hands out 1 first |
| Acks.NextId | ackmanager.go:24-30 | the id handed out exceeds every earlier one and becomes the counter |
| Acks.AllocateConsecutive | ackmanager.go:20-30 | n successive ids are counter+1 … counter+n, strictly increasing |
| Acks.AddListener | ackmanager.go:32-36 | the id maps to the new listener, every other entry and the counter unchanged |
| Acks.RemoveListener | ackmanager.go:38-42 | only that id disappears; removing an absent id changes nothing |
| Acks.GetListener | ackmanager.go:44-57 | a present id yields its listener and loses its entry; an absent id is the not-found error with no change |
| Acks.SecondLookupFails | ackmanager.go:47-57 | a second lookup of the same id fails: at most one delivery |
| Acks.RemovedListenerNotFound | ackmanager.go:32-57 | a listener added then removed cannot be found |
| Handlers.NewHandlerCaller | handlercaller.go:18-45 | the errors for a non-function, too many results, and a parameter count other than 1 or 2, in that order; an accepted handler records its payload type and its result |
| Handlers.CallArgs | handlercaller.go:57-69 | the call passes the connection first, and the payload only when the handler declares one |
| Handlers.CallMatchesArity | handlercaller.go:18-69 | for every accepted handler the call passes exactly as many arguments as it declares |
| Emitter.FindHandler | eventemitter.go:52-57 | a handler is found exactly when one is registered under the name, and it is that handler |
| Emitter.InitMethods | eventemitter.go:32-34 | no event has a handler; the internal hooks stay |
| Emitter.On | eventemitter.go:39-50 | an invalid handler is refused with its error and nothing changes; a valid one replaces that name's handler and nothing else |
| Emitter.LastRegistrationWins | eventemitter.go:39-50 | registering a name twice keeps the second handler |
| Emitter.FireEvent | eventemitter.go:59-73 | the internal connect/disconnect hook runs first; the user handler runs, last, exactly when one is registered, with the connection and an empty struct |
| Connection.InitChannel | socketioconnection.go:33-38 | alive, empty queue, empty ack table; the counter is kept |
| Connection.NewClient | websocketconnection.go:141-143 | a started client is alive, with an empty queue and ack table, first ack id 1, no handlers, and satisfies the connection invariant |
| Connection.CloseChannel | socketioconnection.go:50-75 | closing a dead connection does nothing; closing a live one closes the transport, leaves only the `0::` sentinel queued, leaves the over-flooded set, fires `disconnect`, keeps the ack table; the invariant is kept |
| Connection.CloseIdempotent | socketioconnection.go:50-75 | a second close changes nothing and fires nothing: the disconnect handler runs at most once |
| Connection.WriterStep | socketioconnection.go:115-141 | at 499 or more queued frames the connection closes; above 250 it is flagged over-flooded, at most 250 it is unflagged; the head frame is written unless it is the `0` sentinel; a failed write closes the connection as CloseChannel does: on a live connection the queue becomes the `0::` sentinel, the over-flooded flag is cleared and the transport close and `disconnect` firing are the actions; the invariant is kept |
| Connection.Drain | socketioconnection.go:115-141 | repeated writer iterations keep the connection invariant and leave the ack table and the handlers alone; the order of the writes is stated by Connection.WriterKeepsOrder |
| Connection.WriterKeepsOrder | socketioconnection.go:115-141 | below the close threshold the writer writes queued frames first-in first-out and leaves the rest queued |
| Connection.Send | socketioconnection.go:146-168 | unmarshallable args and encoding errors are returned; a full queue (500) is the overflow error; an encodable message with marshallable args on a non-full queue succeeds, and then the encoded frame is appended at the tail and nothing else changes; liveness is not consulted |
| Connection.Emit | socketioconnection.go:173-179 | with marshallable args, the emit succeeds exactly when fewer than 500 frames are queued (overflow at 500); the queued frame is `5:::` and the event object of the name and args; a failed emit changes nothing, a successful one only the queue |
| Connection.EmitWithAckStart | socketioconnection.go:184-198 | a fresh id above every earlier one; on success a waiter under that id and a frame carrying that id at the tail; with marshallable args the send succeeds exactly when the queue is not full, and unmarshallable args give the marshalling error; on failure queue and listeners as before; only the queue and the ack table ever change |
| Connection.AckedEmitFrame | socketioconnection.go:184-195 | the frame an acked emit queues carries its id between `5:` and the first `+` |
| Connection.EmitWithAckFinish | socketioconnection.go:200-206 | a delivered reply is returned, on timeout the timeout error; either way the call's waiter is gone afterwards (removed by the dispatcher's lookup or by the timeout) and nothing else changes |
| Connection.EmitWithAck | socketioconnection.go:184-207 | the whole acked emit, as written, leaves the waiters as they were before the call, leaves liveness and the over-flooded flag alone, and keeps the connection invariant |
| Connection.SendErrorReportedAsTimeout | socketioconnection.go:195-206 | as written, a failed send (full queue, unmarshallable args) ends in the timeout error, not the send error |
| Connection.EmitWithAckReportingSend | socketioconnection.go:184-207 | corrected acked emit: a failed send returns its own error at once; otherwise the reply or the timeout; the waiters are as before the call |
| Connection.AckedEmitLeavesNoWaiter | socketioconnection.go:184-207 | after an acked emit ends, however it ends, a reply carrying its id is dropped |
| Connection.AckedEmitReportsSendError | socketioconnection.go:184-207 | with the correction: the marshalling error for unmarshallable args, the overflow error exactly when the queue is full, otherwise the reply or the timeout; an early failure changes nothing |
| Connection.Dispatch | eventemitter.go:75-112 | Connect fires `connect`; Disconnect closes; an Event reaches its handler with the decoded payload when it takes one (an undecodable payload drops it); an Ack delivers its args to the waiter of its id and removes it; unknown ids and other kinds are dropped |
| Connection.AckDeliveredAtMostOnce | eventemitter.go:103-110 | the same Ack dispatched twice delivers at most once |
| Connection.FailedAckedEmitGetsNoReply | socketioconnection.go:195-198 | after a failed send, a reply for that id reaches nobody |
| Connection.LateReplyDropped | socketioconnection.go:203-205 | after a timeout, a late reply for that id is dropped without effect |
| Connection.AckedEmitResolvedByReply | socketioconnection.go:184-202 | after a successful acked emit, the server's reply for that id is delivered to that call's waiter |
| Connection.ReaderStep | socketioconnection.go:79-98 | a transport error closes and returns nil; a decode error closes and returns that error; a decoded frame is dispatched; the invariant is kept (the Noop branch, which would queue a heartbeat or wait on a full queue, is dead) |
| Connection.HeartbeatStep | socketioconnection.go:212-221 | a dead connection ends the loop; a live one queues `2::` at the tail, waiting while the queue is full |
| Connection.NoHeartbeatAfterClose | socketioconnection.go:212-221 | once closed, the heartbeat loop ends and queues nothing |
| Handshake.ParseHandshake | handshake.go:33-40 | the token is the `:`-free text before the first `:`; each timeout is its field's numeral value when that is an int64, 0 on a syntax error and the int64 bound of the field's sign on a range error |
| Handshake.ParseWellFormed | handshake.go:35-38 | `token:h:c` followed by nothing or more `:`-led fields parses to exactly token, h and c |
| Transport.NewConnection | websocketconnection.go:155-159 | buffer size 32768, every duration zero |
| Transport.WsScheme | websocketconnection.go:113-118 | `wss` exactly for `https`, `ws` for every other scheme |
| Transport.Seconds | websocketconnection.go:125 | seconds to int64 nanoseconds: exact when the product fits, otherwise a different int64 congruent to it modulo 2^64 (the wrapped product) |
| Transport.ApplySession | websocketconnection.go:125-131 | heartbeat, send and receive timeouts all equal the heartbeat timeout; the interval is half of it, truncated; the close timeout is the connection timeout; the buffer size is kept |
| Transport.IntervalIsHalfTimeout | websocketconnection.go:125-127 | without wrap-around, two intervals make the timeout for an even number of seconds and fall one second short for an odd one; a non-negative timeout bounds its interval |
| Transport.UrlString | websocketconnection.go:134 | `scheme:` when there is a scheme; `//host` exactly when there is a scheme or a host and the host was not marked omitted; then the path, query and fragment; a URL with neither scheme nor host prints as its path, query and fragment |
| Transport.SocketPath | websocketconnection.go:133 | the path is `/socket.io/1/websocket/` followed by the token, and is rooted |
| Transport.DialUrl | websocketconnection.go:133-134 | the path is set to the token's websocket path, the URL is printed and the first occurrence of its scheme is replaced by the websocket scheme; its value is stated by Transport.DialUrlPrinted |
| Transport.DialUrlPrinted | websocketconnection.go:133-134 | a non-empty scheme is replaced where it stands at the front, giving `ws:` or `wss:` and the rest of the printed URL; an empty scheme matches at the start, giving `ws` glued to the printed URL |
| Transport.DialUrlSwapsScheme | websocketconnection.go:133-134 | for a URL with a scheme, the dial address is `ws:` or `wss:`, `//host` unless the host was omitted, the token's path, then query and fragment |
| Transport.DialUrlWithoutScheme | websocketconnection.go:133-134 | for a URL without a scheme, `ws//host` and the token's path when there is a host; `ws` directly followed by the token's path when there is none, since such a URL prints without `//` |
| Transport.GetNextMsg | websocketconnection.go:35-58 | a transport error passes through; binary, unreadable and empty messages get their own errors in that order; otherwise the non-empty text |
| Transport.Connect | websocketconnection.go:108-149 | a failed handshake returns its error with the transport untouched; otherwise the timings are set even if the dial fails; a client is started exactly when handshake and dial succeed |

## Left out

- Concurrency is not modelled: goroutines, mutexes and channels are absent. The three loops and the `go` dispatch of each frame are single steps on one state. A blocking channel send or receive is the `Blocked` status. Interleavings are not explored.
- Acks.GetListener: the Go code deletes the entry while holding only the read lock, which is a data race between concurrent readers. The model is sequential and treats the lookup-and-remove as atomic.
- Acks.NextId: the counter is an unbounded integer. Go's `int` would wrap after 2^63-1 ids.
- Transport.ApplySession: the heartbeat interval goes through `float64` and `math.Floor`. That round trip is exact for quotients up to 2^53 in magnitude, and it is modelled as the integer quotient. Rounding above that bound is not modelled.
- Handlers.NewHandlerCaller: checks only that the handler is a function, its result count and its parameter count, as handlercaller.go:18-45 does; the type of the first parameter is not checked, so a handler such as `func(s string)` is accepted and every later call panics in reflect's `Call` because `*SocketIOConnection` is not assignable to it. The model records the call and does not model the panic.
- Emitter.FireEvent: for a two-parameter handler, the Go call passes a `struct{}` value where the payload type is declared. reflect's `Call` panics when `struct{}` is not assignable to that type. It is assignable to `struct{}` and to an interface type without methods such as `interface{}`. The model records the call and does not model the panic.
- Connection.EmitWithAck: its contract states what it leaves behind, not what it returns. What it returns is stated by Connection.SendErrorReportedAsTimeout and by the contracts of its two halves.
- Connection.EmitWithAckFinish: a reply that arrives at the same instant as the timeout is not modelled. The outcome is given as either a delivered reply or a timeout.
- The HTTP handshake request is left out: `http.Get`, reading the body, and the time token. Its `Query().Set` acts on a copy and has no effect. Only the parsing of the reply body is modelled.
- url.Parse is left out: a URL is given as its parsed parts (scheme, host, path, query with its force-query flag, fragment, and the omit-host flag). User info and an opaque part cannot be represented, so url.String is modelled only for URLs without them. Printing is modelled only for a path that starts with a single `/`, which the websocket path always does. Escaping of the host, the path and the fragment is ignored.
- gorilla/websocket I/O is not modelled: dialling, reading, writing, deadlines and `Close`. Their outcomes are inputs. `WriteMsg` and `GetPingInfo` only forward to the socket or return two fields.
- JSON encoding and decoding are function parameters. Their behaviour on particular texts is not modelled.
- Go strings are byte strings. They are modelled as `seq<char>`, with no UTF-8 decoding, which the core never performs.
- `log.Println` calls are left out. They have no effect on state.
- `AmountOfOverflooded` is left out. The process-wide over-flooded set is modelled as each connection's own membership flag, and the count across connections is not modelled.
- `IsActive` and `SocketIOClient.Close` are left out: the first reads the liveness flag, the second calls `CloseChannel`. So are the `OnError` constant, `ErrorHTTPUpgradeFailed` and the `requestHeader` field, which nothing uses.
- The example programs are left out.

## Findings

| source | as written | input that shows it | evidently intended | confidence | as-written member | corrected member |
|---|---|---|---|---|---|---|
| socketioconnection.go:195-206 | when `send` fails, `EmitWithAck` removes the waiter but does not return. It then waits out the receive timeout and reports `ErrorSendTimeout` | an acked emit on a connection whose queue holds 500 frames (or with args `json.Marshal` refuses) | return the send error (`ErrorSocketOverflood` or the marshalling error) at once, as the removal of the waiter suggests | medium, not executed | Connection.SendErrorReportedAsTimeout | Connection.AckedEmitReportsSendError |

=== FILE: acks.dfy ===
/** The ack correlator: hands out ack ids and keeps, per id, the listener
    waiting for the server's reply. */
module Acks {
  import opened Errors

  /** `counter` is the last id handed out (0 before the first); each
      listener is the reply channel of one pending acked emit. */
  datatype AckManager<L> = AckManager(counter: int, listeners: map<int, L>)

  /** The table of a fresh connection: no listeners, and the next id is 1. */
  function Empty<L>(): (a: AckManager<L>)
    ensures a.listeners == map[]
    ensures NextId(a).id == 1
  {
    AckManager(0, map[])
  }

  datatype Allocated<L> = Allocated(acks: AckManager<L>, id: int)

  /** getNextID: the id handed out is fresh (above every earlier one) and
      becomes the new counter; listeners are untouched. */
  function NextId<L>(a: AckManager<L>): (r: Allocated<L>)
    ensures r.id > a.counter
    ensures r.acks.counter == r.id
    ensures r.acks.listeners == a.listeners
  {
    var id := a.counter + 1;
    Allocated(a.(counter := id), id)
  }

  datatype Batch<L> = Batch(acks: AckManager<L>, ids: seq<int>)

  /** `n` successive getNextID calls, in order. */
  function Allocate<L>(a: AckManager<L>, n: nat): Batch<L>
    decreases n
  {
    if n == 0 then Batch(a, [])
    else
      var first := NextId(a);
      var rest := Allocate(first.acks, n - 1);
      Batch(rest.acks, [first.id] + rest.ids)
  }

  /** Successive ids are consecutive: the i-th is counter + i + 1, so they
      strictly increase, are pairwise distinct, and from a fresh table the
      first n calls return exactly 1..n. */
  lemma {:induction false} AllocateConsecutive<L>(a: AckManager<L>, n: nat)
    ensures var b := Allocate(a, n);
            && |b.ids| == n
            && b.acks.counter == a.counter + n
            && b.acks.listeners == a.listeners
            && (forall i :: 0 <= i < n ==> b.ids[i] == a.counter + i + 1)
            && (forall i, j :: 0 <= i < j < n ==> b.ids[i] < b.ids[j])
    decreases n
  {
    if n > 0 {
      var first := NextId(a);
      AllocateConsecutive(first.acks, n - 1);
      var rest := Allocate(first.acks, n - 1);
      var b := Allocate(a, n);
      assert b.ids == [first.id] + rest.ids;
      forall i | 0 <= i < n
        ensures b.ids[i] == a.counter + i + 1
      {
        if i > 0 {
          assert b.ids[i] == rest.ids[i - 1];
        }
      }
    }
  }

  /** addListener: `id` now maps to `w`, replacing any earlier listener;
      every other entry and the counter are unchanged. */
  function AddListener<L>(a: AckManager<L>, id: int, w: L): (r: AckManager<L>)
    ensures id in r.listeners && r.listeners[id] == w
    ensures r.listeners.Keys == a.listeners.Keys + {id}
    ensures forall k :: k in a.listeners && k != id ==> r.listeners[k] == a.listeners[k]
    ensures r.counter == a.counter
  {
    a.(listeners := a.listeners[id := w])
  }

  /** removeListener: only `id` goes away, and removing an absent id
      changes nothing. */
  function RemoveListener<L>(a: AckManager<L>, id: int): (r: AckManager<L>)
    ensures r.listeners.Keys == a.listeners.Keys - {id}
    ensures forall k :: k in r.listeners ==> r.listeners[k] == a.listeners[k]
    ensures id !in a.listeners ==> r == a
    ensures r.counter == a.counter
  {
    a.(listeners := a.listeners - {id})
  }

  datatype Lookup<L> = Lookup(acks: AckManager<L>, listener: Result<L>)

  /** getListener: a present id yields its listener and loses its entry;
      an absent id yields ErrorAckListenerNotFound and changes nothing. */
  function GetListener<L>(a: AckManager<L>, id: int): (r: Lookup<L>)
    ensures id in a.listeners ==> r.listener == Ok(a.listeners[id]) && r.acks == RemoveListener(a, id)
    ensures id !in a.listeners ==> r.listener == Err(AckListenerNotFound) && r.acks == a
    ensures id !in r.acks.listeners
  {
    if id in a.listeners then Lookup(RemoveListener(a, id), Ok(a.listeners[id]))
    else Lookup(a, Err(AckListenerNotFound))
  }

  /** At-most-once delivery: whatever the first lookup of an id returned,
      a second lookup of the same id fails. */
  lemma SecondLookupFails<L>(a: AckManager<L>, id: int)
    ensures GetListener(GetListener(a, id).acks, id).listener == Err(AckListenerNotFound)
  {
  }

  /** A listener registered and then removed (the timeout and failed-send
      paths) can no longer be found. */
  lemma RemovedListenerNotFound<L>(a: AckManager<L>, id: int, w: L)
    ensures GetListener(RemoveListener(AddListener(a, id, w), id), id).listener == Err(AckListenerNotFound)
    ensures RemoveListener(AddListener(a, id, w), id).listeners.Keys == a.listeners.Keys - {id}
  {
  }
}

=== FILE: connection.dfy ===
/** One client connection: liveness, the bounded outbound queue with its
    backpressure rule, the ack table, and one step of each of the reader,
    writer and heartbeat loops. The loops run concurrently in the library;
    here each iteration is a pure step on the connection's state. */
module Connection {
  import opened Errors
  import opened Spec
  import opened Messages
  import opened GoStrconv
  import opened GoStrings
  import opened Encoder
  import opened Decoder
  import opened Acks
  import opened Handlers
  import opened Emitter

  /** Capacity of the outbound queue. */
  const QueueMaxSize := 500

  /** The reply channel an acked emit waits on, named by its ack id. */
  datatype Waiter = Waiter(ackId: int)

  /** `overflooded` is this connection's membership in the process-wide
      set of over-flooded connections. */
  datatype Conn = Conn(alive: bool, queue: seq<string>, overflooded: bool, acks: AckManager<Waiter>)

  /** The client: a connection plus its handler registry. */
  datatype Client = Client(conn: Conn, emitter: Emitter)

  /** What holds of every reachable connection: the queue respects its
      capacity, holds no empty frame (the writer reads each frame's first
      byte), and every pending ack id has already been handed out. */
  predicate Valid(c: Conn) {
    && |c.queue| <= QueueMaxSize
    && c.acks.counter >= 0
    && (forall i :: 0 <= i < |c.queue| ==> |c.queue[i]| > 0)
    && (forall id :: id in c.acks.listeners ==> id <= c.acks.counter)
  }

  /** Something the connection does that the outside world sees. */
  datatype Action =
    | Fired(effect: Effect)
    | TransportClosed
    | Wrote(frame: string)
    | Delivered(to: Waiter, payload: string)

  function Lift(es: seq<Effect>): (r: seq<Action>)
    ensures |r| == |es|
    ensures forall i :: 0 <= i < |es| ==> r[i] == Fired(es[i])
  {
    seq(|es|, i requires 0 <= i < |es| => Fired(es[i]))
  }

  /** The frame CloseChannel leaves for the writer, and the frame the
      heartbeat loop sends. */
  const DisconnectSentinel := Code(Disconnect) + "::"
  const HeartbeatFrame := Code(Heartbeat) + "::"

  /** initChannel: an empty queue, an empty ack table, alive. The id
      counter and the over-flood membership are not touched. */
  function InitChannel(c: Conn): (r: Conn)
    ensures r.alive && r.queue == [] && r.acks.listeners == map[]
    ensures r.acks.counter == c.acks.counter && r.overflooded == c.overflooded
    ensures c.acks.counter >= 0 ==> Valid(r)
  {
    Conn(true, [], c.overflooded, AckManager(c.acks.counter, map[]))
  }

  /** The state Connect builds on a zero-valued client: initChannel and
      initMethods. */
  function NewClient(): (cl: Client)
    ensures cl.conn.alive && cl.conn.queue == [] && !cl.conn.overflooded
    ensures cl.conn.acks.listeners == map[] && NextId(cl.conn.acks).id == 1
    ensures forall ev :: FindHandler(cl.emitter, ev).None?
    ensures Valid(cl.conn)
  {
    var zero := Client(Conn(false, [], false, Empty()), Emitter(map[], false, false));
    Client(InitChannel(zero.conn), InitMethods(zero.emitter))
  }

  datatype Outcome = Outcome(client: Client, actions: seq<Action>)

  /** CloseChannel. On a closed connection it does nothing. On an open one
      it closes the transport, marks the connection dead, discards the
      queue and leaves only the Disconnect sentinel in it, fires
      `disconnect`, and leaves the over-flooded set. It always returns a nil
      error, whatever reason its caller passes. */
  function CloseChannel(cl: Client): (r: Outcome)
    ensures !cl.conn.alive ==> r == Outcome(cl, [])
    ensures cl.conn.alive ==>
              && !r.client.conn.alive
              && r.client.conn.queue == [DisconnectSentinel]
              && !r.client.conn.overflooded
              && r.client.conn.acks == cl.conn.acks
              && r.client.emitter == cl.emitter
              && r.actions == [TransportClosed] + Lift(FireEvent(cl.emitter, OnDisconnect))
    ensures Valid(cl.conn) ==> Valid(r.client.conn)
  {
    if !cl.conn.alive then Outcome(cl, [])
    else
      var conn := cl.conn.(alive := false, queue := [DisconnectSentinel], overflooded := false);
      Outcome(cl.(conn := conn), [TransportClosed] + Lift(FireEvent(cl.emitter, OnDisconnect)))
  }

  /** Closing twice is closing once: the second call changes nothing and
      fires nothing, so the user's `disconnect` handler runs at most once. */
  lemma CloseIdempotent(cl: Client)
    ensures var once := CloseChannel(cl);
            CloseChannel(once.client) == Outcome(once.client, [])
    ensures var acts := CloseChannel(cl).actions;
            forall i, j :: 0 <= i < j < |acts| ==> !(acts[i].Fired? && acts[i].effect.Invoked? && acts[j].Fired? && acts[j].effect.Invoked?)
  {
  }

  /** The state of a loop after one iteration. */
  datatype Status = Running | Blocked | Exited(err: Option<Error>)

  datatype Step = Step(client: Client, actions: seq<Action>, status: Status)

  /** One iteration of handleOutboundMessages, given what the transport
      write of the head frame would report. The queue length L decides
      first: L >= 499 closes the connection (the loop returns CloseChannel's
      nil), 250 < L < 499 joins the over-flooded set, L <= 250 leaves it.
      Then the head frame is taken (the loop waits when there is none); a
      frame starting with `0` ends the loop unwritten, any other is
      written, and a failed write closes the connection. */
  function WriterStep(cl: Client, writeErr: Option<Error>): (r: Step)
    requires Valid(cl.conn)
    ensures var q := cl.conn.queue;
            |q| >= QueueMaxSize - 1 ==>
              r == Step(CloseChannel(cl).client, CloseChannel(cl).actions, Exited(None))
    ensures var q := cl.conn.queue;
            |q| < QueueMaxSize - 1 && (q == [] || q[0][0] == '0' || writeErr.None?) ==>
              && r.client.conn.overflooded == (|q| > QueueMaxSize / 2)
              && r.client.conn.alive == cl.conn.alive
              && r.client.conn.acks == cl.conn.acks
              && r.client.emitter == cl.emitter
    ensures cl.conn.queue == [] ==> r.status == Blocked && r.actions == [] && r.client.conn.queue == []
    ensures var q := cl.conn.queue;
            0 < |q| < QueueMaxSize - 1 && q[0][0] == '0' ==>
              r.status == Exited(None) && r.actions == [] && r.client.conn.queue == q[1..]
    ensures var q := cl.conn.queue;
            0 < |q| < QueueMaxSize - 1 && q[0][0] != '0' && writeErr.None? ==>
              r.status == Running && r.actions == [Wrote(q[0])] && r.client.conn.queue == q[1..]
    ensures var q := cl.conn.queue;
            0 < |q| < QueueMaxSize - 1 && q[0][0] != '0' && writeErr.Some? ==>
              && r.status == Exited(None)
              && (forall i :: 0 <= i < |r.actions| ==> !r.actions[i].Wrote?)
              && !r.client.conn.alive
              && r.client.conn.acks == cl.conn.acks
              && r.client.emitter == cl.emitter
    ensures var q := cl.conn.queue;
            0 < |q| < QueueMaxSize - 1 && q[0][0] != '0' && writeErr.Some? && cl.conn.alive ==>
              && r.client.conn.queue == [DisconnectSentinel]
              && !r.client.conn.overflooded
              && r.actions == [TransportClosed] + Lift(FireEvent(cl.emitter, OnDisconnect))
    ensures var q := cl.conn.queue;
            0 < |q| < QueueMaxSize - 1 && q[0][0] != '0' && writeErr.Some? && !cl.conn.alive ==>
              && r.client.conn.queue == q[1..]
              && r.client.conn.overflooded == (|q| > QueueMaxSize / 2)
              && r.actions == []
    ensures Valid(r.client.conn)
  {
    var q := cl.conn.queue;
    if |q| >= QueueMaxSize - 1 then
      var closed := CloseChannel(cl);
      Step(closed.client, closed.actions, Exited(None))
    else
      var flagged := cl.(conn := cl.conn.(overflooded := |q| > QueueMaxSize / 2));
      if |q| == 0 then Step(flagged, [], Blocked)
      else
        var msg := q[0];
        var taken := flagged.(conn := flagged.conn.(queue := q[1..]));
        if [msg[0]] == Code(Disconnect) then Step(taken, [], Exited(None))
        else
          match writeErr
          case None => Step(taken, [Wrote(msg)], Running)
          case Some(_) =>
            var closed := CloseChannel(taken);
            Step(closed.client, closed.actions, Exited(None))
  }

  /** Up to `n` writer iterations in which every write succeeds. The writer
      touches neither the ack table nor the handlers. */
  function Drain(cl: Client, n: nat): (r: Outcome)
    requires Valid(cl.conn)
    ensures Valid(r.client.conn)
    ensures r.client.conn.acks == cl.conn.acks && r.client.emitter == cl.emitter
    decreases n
  {
    if n == 0 then Outcome(cl, [])
    else
      var s := WriterStep(cl, None);
      if s.status != Running then Outcome(s.client, s.actions)
      else
        var rest := Drain(s.client, n - 1);
        Outcome(rest.client, s.actions + rest.actions)
  }

  /** The writer is a FIFO: below the close threshold, n iterations write
      the first n queued frames in the order they were queued and leave
      the rest queued. */
  lemma {:induction false} WriterKeepsOrder(cl: Client, n: nat)
    requires Valid(cl.conn)
    requires n <= |cl.conn.queue| < QueueMaxSize - 1
    requires forall i :: 0 <= i < n ==> cl.conn.queue[i][0] != '0'
    ensures var d := Drain(cl, n);
            && |d.actions| == n
            && (forall i :: 0 <= i < n ==> d.actions[i] == Wrote(cl.conn.queue[i]))
            && d.client.conn.queue == cl.conn.queue[n..]
    decreases n
  {
    if n > 0 {
      var q := cl.conn.queue;
      var s := WriterStep(cl, None);
      assert s.status == Running && s.actions == [Wrote(q[0])] && s.client.conn.queue == q[1..];
      var rest := Drain(s.client, n - 1);
      assert Drain(cl, n) == Outcome(rest.client, [Wrote(q[0])] + rest.actions);
      WriterKeepsOrder(s.client, n - 1);
      assert q[1..][n - 1..] == q[n..];
      forall i | 0 <= i < n
        ensures ([Wrote(q[0])] + rest.actions)[i] == Wrote(q[i])
      {
        if i > 0 {
          assert ([Wrote(q[0])] + rest.actions)[i] == rest.actions[i - 1] == Wrote(q[1..][i - 1]);
        }
      }
    }
  }

  /** The payload handed to send: nil, JSON the library can marshal, or a
      value encoding/json refuses. */
  datatype Args = NilArgs | JsonArgs(text: string) | UnmarshalableArgs

  /** The frame record send encodes: the marshalled args replace the
      message's args, nil args leave them as they are. */
  function WithArgs(msg: Message, args: Args): Message
  {
    if args.JsonArgs? then msg.(args := args.text) else msg
  }

  datatype Sent = Sent(conn: Conn, err: Option<Error>)

  /** send: marshal the args, encode, and append the frame at the tail of
      the queue, unless the queue already holds 500 frames. Liveness is not
      consulted. */
  function Send(c: Conn, msg: Message, args: Args): (r: Sent)
    ensures args.UnmarshalableArgs? ==> r == Sent(c, Some(JsonMarshal))
    ensures !args.UnmarshalableArgs? && Encode(WithArgs(msg, args)).Err? ==>
              r == Sent(c, Some(ProtocolUnexpectedOutboundMessageType))
    ensures !args.UnmarshalableArgs? && Encode(WithArgs(msg, args)).Ok? ==>
              (r.err == Some(SocketOverflood) <==> |c.queue| == QueueMaxSize)
    ensures !args.UnmarshalableArgs? && Encode(WithArgs(msg, args)).Ok? && |c.queue| != QueueMaxSize ==>
              r.err.None?
    ensures r.err.Some? ==> r.conn == c
    ensures r.err.None? ==>
              && r.conn.queue == c.queue + [Encode(WithArgs(msg, args)).value]
              && r.conn == c.(queue := r.conn.queue)
    ensures Valid(c) ==> Valid(r.conn)
  {
    if args.UnmarshalableArgs? then Sent(c, Some(JsonMarshal))
    else
      match Encode(WithArgs(msg, args))
      case Err(e) => Sent(c, Some(e))
      case Ok(frame) =>
        if |c.queue| == QueueMaxSize then Sent(c, Some(SocketOverflood))
        else Sent(c.(queue := c.queue + [frame]), None)
  }

  /** The args text an emitted event carries. */
  function ArgsText(args: Args): string
  {
    if args.JsonArgs? then args.text else ""
  }

  /** Emit: an Event frame without ack id for `name`, sent as is. The
      queued frame is `5:::` followed by the event object. */
  function Emit(c: Conn, name: string, args: Args): (r: Sent)
    ensures args.UnmarshalableArgs? ==> r == Sent(c, Some(JsonMarshal))
    ensures !args.UnmarshalableArgs? ==> (r.err == Some(SocketOverflood) <==> |c.queue| == QueueMaxSize)
    ensures !args.UnmarshalableArgs? && |c.queue| != QueueMaxSize ==> r.err.None?
    ensures r.err.Some? ==> r.conn == c
    ensures r.err.None? ==> r.conn == c.(queue := r.conn.queue)
    ensures r.err.None? ==>
              && |r.conn.queue| == |c.queue| + 1
              && r.conn.queue[..|c.queue|] == c.queue
              && var f := r.conn.queue[|c.queue|];
                 |f| >= 4 && f[..4] == "5:::" && f[4..] == EventObject(name, ArgsText(args))
    ensures Valid(c) ==> Valid(r.conn)
  {
    var r := Send(c, Message(Event, 0, name, ""), args);
    assert r.err.None? ==> r.conn.queue[..|c.queue|] == c.queue;
    r
  }

  datatype AckCall = AckCall(conn: Conn, id: int, sendErr: Option<Error>)

  /** The first half of EmitWithAck: take a fresh id, register a waiter
      under it, and send an Event frame carrying it. If the send fails the
      waiter is removed again; the send error is not returned, the call
      goes on to wait (see EmitWithAckFinish). */
  function EmitWithAckStart(c: Conn, name: string, args: Args): (r: AckCall)
    requires Valid(c)
    ensures r.id > c.acks.counter && r.conn.acks.counter == r.id
    ensures r.id !in c.acks.listeners
    ensures r.sendErr.None? ==>
              && r.conn.acks.listeners == c.acks.listeners[r.id := Waiter(r.id)]
              && |r.conn.queue| == |c.queue| + 1
              && r.conn.queue[..|c.queue|] == c.queue
              && CarriesAckId(r.conn.queue[|c.queue|], r.id, EventObject(name, ArgsText(args)))
    ensures r.sendErr.Some? ==> r.conn.queue == c.queue && r.conn.acks.listeners == c.acks.listeners
    ensures !args.UnmarshalableArgs? ==> (r.sendErr == Some(SocketOverflood) <==> |c.queue| == QueueMaxSize)
    ensures !args.UnmarshalableArgs? && |c.queue| != QueueMaxSize ==> r.sendErr.None?
    ensures args.UnmarshalableArgs? ==> r.sendErr == Some(JsonMarshal)
    ensures r.conn == c.(queue := r.conn.queue, acks := r.conn.acks)
    ensures Valid(r.conn)
  {
    var alloc := NextId(c.acks);
    var id := alloc.id;
    var withWaiter := c.(acks := AddListener(alloc.acks, id, Waiter(id)));
    assert Valid(withWaiter);
    var sent := Send(withWaiter, Message(Event, id, name, ""), args);
    if sent.err.Some? then
      AckCall(sent.conn.(acks := RemoveListener(sent.conn.acks, id)), id, sent.err)
    else
      AckedEmitFrame(id, name, args);
      assert sent.conn.queue[..|c.queue|] == c.queue;
      AckCall(sent.conn, id, None)
  }

  /** The frame an acked emit queues carries its id between `5:` and the
      first `+`. */
  lemma AckedEmitFrame(id: int, name: string, args: Args)
    requires id > 0 && !args.UnmarshalableArgs?
    ensures CarriesAckId(Encode(WithArgs(Message(Event, id, name, ""), args)).value, id, EventObject(name, ArgsText(args)))
  {
    var msg := WithArgs(Message(Event, id, name, ""), args);
    assert msg == Message(Event, id, name, ArgsText(args));
    assert msg.kind == Event && msg.ExpectsAck();
  }

  datatype AckReply = AckReply(conn: Conn, result: Result<string>)

  /** The second half of EmitWithAck: either the dispatcher delivered a
      payload on the waiter, which is returned, or the receive timeout
      fired, the waiter is removed and ErrorSendTimeout is returned. Either
      way the waiter is gone afterwards and nothing else changes: a
      delivered payload could only reach the waiter through the
      dispatcher's GetListener, which removed it. */
  function EmitWithAckFinish(c: Conn, id: int, delivered: Option<string>): (r: AckReply)
    ensures delivered.Some? ==> r.result == Ok(delivered.value)
    ensures delivered.None? ==> r.result == Err(SendTimeout)
    ensures r.conn == c.(acks := r.conn.acks)
    ensures r.conn.acks.listeners.Keys == c.acks.listeners.Keys - {id}
    ensures forall k :: k in r.conn.acks.listeners ==> r.conn.acks.listeners[k] == c.acks.listeners[k]
    ensures r.conn.acks.counter == c.acks.counter
    ensures Valid(c) ==> Valid(r.conn)
  {
    var done := c.(acks := RemoveListener(c.acks, id));
    match delivered
    case Some(payload) => AckReply(done, Ok(payload))
    case None => AckReply(done, Err(SendTimeout))
  }

  /** EmitWithAck as written: start the call, then wait. `reply` is the
      server's ack payload if one would arrive before the receive timeout;
      a call whose send failed has no waiter left, so nothing can reach it
      and the wait always ends in the timeout. */
  function EmitWithAck(c: Conn, name: string, args: Args, reply: Option<string>): (r: AckReply)
    requires Valid(c)
    ensures r.conn.acks.listeners == c.acks.listeners
    ensures r.conn.alive == c.alive && r.conn.overflooded == c.overflooded
    ensures Valid(r.conn)
  {
    var call := EmitWithAckStart(c, name, args);
    EmitWithAckFinish(call.conn, call.id, if call.sendErr.None? then reply else None)
  }

  /** The send error of an acked emit is lost: a full queue or args that
      cannot be marshalled make the call wait out the timeout and report
      ErrorSendTimeout instead of ErrorSocketOverflood or the JSON error. */
  lemma SendErrorReportedAsTimeout(c: Conn, name: string, args: Args, reply: Option<string>)
    requires Valid(c) && (|c.queue| == QueueMaxSize || args.UnmarshalableArgs?)
    ensures EmitWithAckStart(c, name, args).sendErr.Some?
    ensures EmitWithAck(c, name, args, reply).result == Err(SendTimeout)
    ensures EmitWithAck(c, name, args, reply).result != Err(EmitWithAckStart(c, name, args).sendErr.value)
  {
  }

  /** EmitWithAck returning the send error as soon as the send fails, which
      is what removing the waiter at that point is for. */
  function EmitWithAckReportingSend(c: Conn, name: string, args: Args, reply: Option<string>): (r: AckReply)
    requires Valid(c)
    ensures r.conn.acks.listeners == c.acks.listeners
    ensures r.conn.alive == c.alive && r.conn.overflooded == c.overflooded
    ensures Valid(r.conn)
    ensures var call := EmitWithAckStart(c, name, args);
            && (call.sendErr.Some? ==> r == AckReply(call.conn, Err(call.sendErr.value)))
            && (call.sendErr.None? ==> r == EmitWithAckFinish(call.conn, call.id, reply))
  {
    var call := EmitWithAckStart(c, name, args);
    if call.sendErr.Some? then AckReply(call.conn, Err(call.sendErr.value))
    else EmitWithAckFinish(call.conn, call.id, reply)
  }

  /** With the send error reported, an acked emit fails with the overflow
      error exactly when the queue is full, with the marshalling error
      exactly when the args cannot be marshalled, and otherwise returns
      the reply or times out; it changes nothing when it fails early. */
  lemma AckedEmitReportsSendError(c: Conn, name: string, args: Args, reply: Option<string>)
    requires Valid(c)
    ensures var r := EmitWithAckReportingSend(c, name, args, reply);
            && (args.UnmarshalableArgs? ==> r.result == Err(JsonMarshal))
            && (!args.UnmarshalableArgs? ==> (r.result == Err(SocketOverflood) <==> |c.queue| == QueueMaxSize))
            && (!args.UnmarshalableArgs? && |c.queue| < QueueMaxSize ==>
                  r.result == (if reply.Some? then Ok(reply.value) else Err(SendTimeout)))
            && (r.result.Err? && r.result != Err(SendTimeout) ==>
                  r.conn.queue == c.queue && r.conn.acks.listeners == c.acks.listeners)
  {
  }

  /** How a handler's payload is decoded from JSON into its declared type;
      None is a decoding error. */
  type ArgDecoder = (TypeName, string) -> Option<ArgValue>

  /** checkAndFireListenersForValidMessage: Connect fires `connect`,
      Disconnect closes the connection, an Event goes to the handler
      registered under its name (payload decoded only when the handler
      takes one; an undecodable payload drops the event), an Ack consumes
      the waiter of its id and delivers the args to it (an unknown id is
      dropped). Every other kind does nothing. */
  function Dispatch(cl: Client, msg: Message, decode: ArgDecoder): (r: Outcome)
    ensures msg.kind == Connect ==> r == Outcome(cl, Lift(FireEvent(cl.emitter, OnConnect)))
    ensures msg.kind == Disconnect ==> r == CloseChannel(cl)
    ensures msg.kind !in {Connect, Disconnect, Event, Ack} ==> r == Outcome(cl, [])
    ensures msg.kind == Event ==> r.client == cl && |r.actions| <= 1
    ensures msg.kind == Event && FindHandler(cl.emitter, msg.eventName).None? ==> r.actions == []
    ensures msg.kind == Event && FindHandler(cl.emitter, msg.eventName).Some? ==>
              var h := FindHandler(cl.emitter, msg.eventName).value;
              && (!h.ArgsPresent() ==> r.actions == [Fired(Invoked(msg.eventName, [ConnArg]))])
              && (h.ArgsPresent() && decode(h.args.value, msg.args).None? ==> r.actions == [])
              && (h.ArgsPresent() && decode(h.args.value, msg.args).Some? ==>
                    r.actions == [Fired(Invoked(msg.eventName, [ConnArg, PayloadArg(decode(h.args.value, msg.args).value)]))])
    ensures msg.kind == Ack && msg.ackId in cl.conn.acks.listeners ==>
              && r.actions == [Delivered(cl.conn.acks.listeners[msg.ackId], msg.args)]
              && r.client == cl.(conn := cl.conn.(acks := RemoveListener(cl.conn.acks, msg.ackId)))
    ensures msg.kind == Ack && msg.ackId !in cl.conn.acks.listeners ==> r == Outcome(cl, [])
    ensures Valid(cl.conn) ==> Valid(r.client.conn)
  {
    match msg.kind
    case Connect => Outcome(cl, Lift(FireEvent(cl.emitter, OnConnect)))
    case Disconnect => CloseChannel(cl)
    case Event =>
      (match FindHandler(cl.emitter, msg.eventName)
       case None => Outcome(cl, [])
       case Some(h) =>
         if !h.ArgsPresent() then
           assert CallArgs(h, EmptyStruct) == [ConnArg];
           Outcome(cl, [Fired(Invoked(msg.eventName, CallArgs(h, EmptyStruct)))])
         else
           match decode(h.args.value, msg.args)
           case None => Outcome(cl, [])
           case Some(v) =>
             assert CallArgs(h, v) == [ConnArg, PayloadArg(v)];
             Outcome(cl, [Fired(Invoked(msg.eventName, CallArgs(h, v)))]))
    case Ack =>
      var lookup := GetListener(cl.conn.acks, msg.ackId);
      (match lookup.listener
       case Err(_) => Outcome(cl, [])
       case Ok(w) => Outcome(cl.(conn := cl.conn.(acks := lookup.acks)), [Delivered(w, msg.args)]))
    case _ => Outcome(cl, [])
  }

  /** At-most-once delivery: the same Ack frame dispatched twice reaches
      its waiter at most once. */
  lemma AckDeliveredAtMostOnce(cl: Client, msg: Message, decode: ArgDecoder)
    requires msg.kind == Ack
    ensures Dispatch(Dispatch(cl, msg, decode).client, msg, decode).actions == []
  {
  }

  /** An acked emit whose send failed leaves no waiter behind, so a reply
      for its id is dropped and the call can only end by timing out. */
  lemma FailedAckedEmitGetsNoReply(cl: Client, name: string, args: Args, payload: string, decode: ArgDecoder)
    requires Valid(cl.conn)
    ensures var call := EmitWithAckStart(cl.conn, name, args);
            call.sendErr.Some? ==>
              Dispatch(cl.(conn := call.conn), Message(Ack, call.id, "", payload), decode).actions == []
  {
  }

  /** However an acked emit ends, it leaves no waiter behind: a second
      reply carrying its id is dropped. */
  lemma AckedEmitLeavesNoWaiter(cl: Client, name: string, args: Args, reply: Option<string>, payload: string, decode: ArgDecoder)
    requires Valid(cl.conn)
    ensures var id := EmitWithAckStart(cl.conn, name, args).id;
            && Dispatch(cl.(conn := EmitWithAck(cl.conn, name, args, reply).conn), Message(Ack, id, "", payload), decode).actions == []
            && Dispatch(cl.(conn := EmitWithAckReportingSend(cl.conn, name, args, reply).conn), Message(Ack, id, "", payload), decode).actions == []
  {
  }

  /** After a timeout removed the waiter, a late reply is dropped. */
  lemma LateReplyDropped(cl: Client, id: int, payload: string, decode: ArgDecoder)
    ensures var t := EmitWithAckFinish(cl.conn, id, None);
            Dispatch(cl.(conn := t.conn), Message(Ack, id, "", payload), decode) == Outcome(cl.(conn := t.conn), [])
  {
  }

  /** A successful acked emit followed by the server's reply resolves the
      waiter of that very id with the reply's args. */
  lemma AckedEmitResolvedByReply(cl: Client, name: string, args: Args, payload: string, decode: ArgDecoder)
    requires Valid(cl.conn)
    ensures var call := EmitWithAckStart(cl.conn, name, args);
            call.sendErr.None? ==>
              Dispatch(cl.(conn := call.conn), Message(Ack, call.id, "", payload), decode).actions
                == [Delivered(Waiter(call.id), payload)]
  {
  }

  /** One iteration of handleInboundMessages, given what the transport's
      GetNextMsg returned. A transport error closes the connection and the
      loop returns CloseChannel's nil; a frame that does not decode closes
      it and the loop returns the decode error; a decoded Noop would queue a
      heartbeat, waiting while the queue is full (it never decodes, see
      NoopNeverDecoded); any other frame is
      dispatched. */
  function ReaderStep(cl: Client, next: Result<string>, json: EventJson, decode: ArgDecoder): (r: Step)
    requires next.Ok? ==> SlicesInBounds(next.value)
    ensures next.Err? ==> r == Step(CloseChannel(cl).client, CloseChannel(cl).actions, Exited(None))
    ensures next.Ok? && Decode(next.value, json).Err? ==>
              r == Step(CloseChannel(cl).client, CloseChannel(cl).actions, Exited(Some(Decode(next.value, json).error)))
    ensures next.Ok? && Decode(next.value, json).Ok? ==>
              && r.status == Running
              && Outcome(r.client, r.actions) == Dispatch(cl, Decode(next.value, json).value, decode)
    ensures Valid(cl.conn) ==> Valid(r.client.conn)
  {
    match next
    case Err(_) =>
      var closed := CloseChannel(cl);
      Step(closed.client, closed.actions, Exited(None))
    case Ok(text) =>
      match Decode(text, json)
      case Err(e) =>
        var closed := CloseChannel(cl);
        Step(closed.client, closed.actions, Exited(Some(e)))
      case Ok(msg) =>
        if msg.kind == Noop then
          if |cl.conn.queue| >= QueueMaxSize then Step(cl, [], Blocked)
          else Step(cl.(conn := cl.conn.(queue := cl.conn.queue + [HeartbeatFrame])), [], Running)
        else
          var routed := Dispatch(cl, msg, decode);
          Step(routed.client, routed.actions, Running)
  }

  datatype Beat = Beat(conn: Conn, status: Status)

  /** One iteration of heartbeatService after its sleep: a dead connection
      ends the loop; a live one queues `2::` at the tail (waiting while the
      queue is full). */
  function HeartbeatStep(c: Conn): (r: Beat)
    ensures !c.alive ==> r == Beat(c, Exited(None))
    ensures c.alive && |c.queue| < QueueMaxSize ==>
              r.status == Running && r.conn == c.(queue := c.queue + [HeartbeatFrame])
    ensures c.alive && |c.queue| >= QueueMaxSize ==> r == Beat(c, Blocked)
    ensures Valid(c) ==> Valid(r.conn)
  {
    if !c.alive then Beat(c, Exited(None))
    else if |c.queue| >= QueueMaxSize then Beat(c, Blocked)
    else Beat(c.(queue := c.queue + [HeartbeatFrame]), Running)
  }

  /** Once closed, the heartbeat loop stops for good and queues nothing
      behind the Disconnect sentinel. */
  lemma NoHeartbeatAfterClose(cl: Client)
    ensures var closed := CloseChannel(cl).client.conn;
            HeartbeatStep(closed) == Beat(closed, Exited(None))
  {
  }
}

=== FILE: decoder.dfy ===
/** Inbound framing: socket.io 0.9 wire text becomes a Message. */
module Decoder {
  import opened Errors
  import opened Spec
  import opened Messages
  import opened GoStrconv
  import opened GoStrings
  import Encoder

  /** What the JSON step makes of an Event frame's object: the `name`
      member, and the `args` member serialized again as JSON text. */
  datatype EventPayload = EventPayload(name: string, args: string)

  /** encoding/json's Unmarshal into `{name, args}` followed by Marshal of
      the args, as one partial function: None is a JSON error. */
  type EventJson = string -> Option<EventPayload>

  /** getInboundMessageType: the frame's first character picks its kind.
      Only Disconnect, Connect, Heartbeat, Event and Ack are accepted (Noop
      and the other codes are not), and a lone `5` is malformed. */
  function InboundType(data: string): (r: Result<FrameType>)
    ensures r.Ok? <==> |data| > 0 && data[0] in "01256" && data != "5"
    ensures |data| == 0 ==> r == Err(ProtocolUnexpectedInboundMessageType)
    ensures |data| > 0 && data[0] !in "01256" ==> r == Err(ProtocolUnexpectedInboundMessageType)
    ensures data == "5" ==> r == Err(ProtocolReceivedInvalidPacket)
    ensures r.Ok? ==> Code(r.value) == [data[0]]
  {
    if |data| == 0 then Err(ProtocolUnexpectedInboundMessageType)
    else
      match data[0]
      case '1' => Ok(Connect)
      case '0' => Ok(Disconnect)
      case '2' => Ok(Heartbeat)
      case '5' => if |data| == 1 then Err(ProtocolReceivedInvalidPacket) else Ok(Event)
      case '6' => Ok(Ack)
      case _ => Err(ProtocolUnexpectedInboundMessageType)
  }

  /** The slices getAckAndDataFromIncomingMessageText takes are in bounds:
      an Event frame of 3 characters, or an Ack frame whose first `+` comes
      before index 4, makes the Go code panic. */
  predicate SlicesInBounds(text: string) {
    |text| >= 3 ==>
      && (text[0] == '5' ==> |text| >= 4)
      && (text[0] == '6' && '+' in text ==> IndexByte(text, '+') >= 4)
  }

  datatype AckAndRest = AckAndRest(ack: int, rest: string)

  /** getAckAndDataFromIncomingMessageText. Frames shorter than `1::` are
      malformed. An Event's rest is everything after its 4-character header
      and its ack is 0. An Ack's id is the numeral between the header and
      the first `+`, and its rest starts AT that `+`. */
  function AckAndData(text: string): (r: Result<AckAndRest>)
    requires SlicesInBounds(text)
    ensures |text| < 3 ==> r == Err(ProtocolReceivedInvalidPacket)
    ensures |text| >= 3 && text[0] == '5' ==> r == Ok(AckAndRest(0, text[4..]))
    ensures |text| >= 3 && text[0] == '6' && '+' !in text ==> r == Err(ProtocolReceivedInvalidPacket)
    ensures r.Ok? && text[0] == '6' ==>
              var k := |text| - |r.value.rest|;
              && 4 <= k < |text|
              && text[k..] == r.value.rest
              && text[k] == '+'
              && '+' !in text[..k]
              && Atoi(text[4..k]) == AtoiResult(r.value.ack, None)
    ensures r.Err? && |text| >= 3 && text[0] == '6' && '+' in text ==>
              var p := IndexByte(text, '+');
              && Atoi(text[4..p]).err.Some?
              && (r.error == NumSyntax <==> Atoi(text[4..p]).err == Some(ErrSyntax))
              && (r.error == NumRange <==> Atoi(text[4..p]).err == Some(ErrRange))
  {
    if |text| < 3 then Err(ProtocolReceivedInvalidPacket)
    else if text[0] == '5' then Ok(AckAndRest(0, text[4..]))
    else if text[0] == '6' then
      var p := IndexByte(text, '+');
      if p == -1 then Err(ProtocolReceivedInvalidPacket)
      else
        var ack :- Atoi(text[4..p]).ToResult();
        Ok(AckAndRest(ack, text[p..]))
    else Ok(AckAndRest(0, ""))
  }

  /** DecodeInboundMessage. Control frames carry nothing beyond their kind
      (no length check beyond non-empty); Event frames get their name and
      args from the JSON step and never an ack id; Ack frames get the id and
      the raw rest of the frame, leading `+` included. */
  function Decode(data: string, json: EventJson): (r: Result<Message>)
    requires SlicesInBounds(data)
    ensures |data| == 0 ==> r == Err(ProtocolUnexpectedInboundMessageType)
    ensures |data| > 0 && data[0] !in "01256" ==> r == Err(ProtocolUnexpectedInboundMessageType)
    ensures |data| > 0 && (data[0] == '5' || data[0] == '6') && |data| < 3 ==> r == Err(ProtocolReceivedInvalidPacket)
    ensures |data| > 0 && data[0] == '6' && '+' !in data ==> r == Err(ProtocolReceivedInvalidPacket)
    ensures |data| > 0 && '0' <= data[0] <= '2' ==> r == Ok(Message(KindOf(data[0]).value, 0, "", ""))
    ensures r.Ok? ==> Code(r.value.kind) == [data[0]] && r.value.kind != Noop
    ensures r.Ok? && r.value.kind == Event ==>
              && r.value.ackId == 0
              && json(data[4..]) == Some(EventPayload(r.value.eventName, r.value.args))
    ensures |data| >= 3 && data[0] == '5' && json(data[4..]).None? ==> r == Err(JsonUnmarshal)
    ensures |data| >= 3 && data[0] == '5' && json(data[4..]).Some? ==>
              r == Ok(Message(Event, 0, json(data[4..]).value.name, json(data[4..]).value.args))
    ensures r.Ok? && r.value.kind == Ack ==> AckFrameParsed(data, r.value)
    ensures |data| >= 3 && data[0] == '6' && '+' in data ==>
              AckNumeralDecides(Atoi(data[4..IndexByte(data, '+')]), r)
  {
    match InboundType(data)
    case Err(e) => Err(e)
    case Ok(kind) =>
      if kind == Connect || kind == Disconnect || kind == Heartbeat || kind == Noop then
        Ok(Message(kind, 0, "", ""))
      else if kind == Event then DecodeEvent(data, json)
      else DecodeAck(data)
  }

  /** The Event branch of DecodeInboundMessage: the text after the header
      goes through the JSON step; the ack id stays 0. */
  function DecodeEvent(data: string, json: EventJson): (r: Result<Message>)
    requires |data| >= 2 && data[0] == '5' && SlicesInBounds(data)
    ensures |data| < 3 ==> r == Err(ProtocolReceivedInvalidPacket)
    ensures |data| >= 3 && json(data[4..]).None? ==> r == Err(JsonUnmarshal)
    ensures r.Ok? ==>
              && r.value.kind == Event
              && r.value.ackId == 0
              && json(data[4..]) == Some(EventPayload(r.value.eventName, r.value.args))
    ensures |data| >= 3 && json(data[4..]).Some? ==>
              r == Ok(Message(Event, 0, json(data[4..]).value.name, json(data[4..]).value.args))
  {
    var split :- AckAndData(data);
    match json(split.rest)
    case None => Err(JsonUnmarshal)
    case Some(obj) => Ok(Message(Event, 0, obj.name, obj.args))
  }

  /** `m` is the Ack frame `data` holds: its args are the frame from the
      first `+` on (the `+` included), and its id is the numeral between the
      4-character header and that `+`. */
  predicate AckFrameParsed(data: string, m: Message) {
    var k := |data| - |m.args|;
    && m.kind == Ack
    && m.eventName == ""
    && 4 <= k < |data|
    && data[k..] == m.args
    && m.args[0] == '+'
    && '+' !in data[..k]
    && Atoi(data[4..k]) == AtoiResult(m.ackId, None)
  }

  /** The Ack branch of DecodeInboundMessage: the id and the raw rest of
      the frame, leading `+` included. */
  function DecodeAck(data: string): (r: Result<Message>)
    requires |data| >= 1 && data[0] == '6' && SlicesInBounds(data)
    ensures |data| < 3 ==> r == Err(ProtocolReceivedInvalidPacket)
    ensures '+' !in data ==> r == Err(ProtocolReceivedInvalidPacket)
    ensures r.Ok? ==> AckFrameParsed(data, r.value)
    ensures |data| >= 3 && '+' in data ==> AckNumeralDecides(Atoi(data[4..IndexByte(data, '+')]), r)
  {
    var split :- AckAndData(data);
    Ok(Message(Ack, split.ack, "", split.rest))
  }

  /** The numeral between an Ack frame's header and its first `+` decides
      the decode: it succeeds exactly when strconv.Atoi accepts the
      numeral, and otherwise fails with Atoi's own error. */
  predicate AckNumeralDecides(n: AtoiResult, r: Result<Message>) {
    && (r.Ok? <==> n.err.None?)
    && (n.err == Some(ErrSyntax) ==> r == Err(NumSyntax))
    && (n.err == Some(ErrRange) ==> r == Err(NumRange))
  }

  /** Decoding is total on its domain in the sense that it never yields a
      Noop frame: the Noop branches of the reader are dead code. */
  lemma NoopNeverDecoded(data: string, json: EventJson)
    requires SlicesInBounds(data)
    ensures Decode(data, json) != Ok(Message(Noop, 0, "", ""))
  {
  }

  /** Round trip of an Event without an ack id: given a JSON library that
      reads back the object the encoder builds (name as written, args
      re-serialized as the array around them), decoding the encoded frame
      gives back the name, no ack id, and the args wrapped in `[` `]`. */
  lemma EventRoundTrip(name: string, args: string, json: EventJson)
    requires json(Encoder.EventObject(name, args)) == Some(EventPayload(name, "[" + args + "]"))
    ensures var f := Encoder.Encode(Message(Event, 0, name, args)).value;
            SlicesInBounds(f) && Decode(f, json) == Ok(Message(Event, 0, name, "[" + args + "]"))
  {
  }

  /** An Event that expects an ack does not survive decoding: the decoder
      hands the JSON step the text after a fixed 4-character header, which
      for such a frame is not the event object (it is longer by the id's
      length plus one). */
  lemma AckedEventHeaderMisread(m: Message)
    requires m.kind == Event && m.ExpectsAck()
    ensures var f := Encoder.Encode(m).value;
            && SlicesInBounds(f)
            && f[4..] != Encoder.EventObject(m.eventName, m.args)
            && |f[4..]| == |Encoder.EventObject(m.eventName, m.args)| + |Itoa(m.ackId)| + 1
  {
  }

  /** The server's reply to an acked Event, `6:::<id>+<payload>`, decodes to
      an Ack frame with that id, whose args keep the `+`. */
  lemma AckReplyDecodes(id: int, payload: string, json: EventJson)
    requires IsInt64(id)
    ensures var f := "6:::" + Itoa(id) + "+" + payload;
            SlicesInBounds(f) && Decode(f, json) == Ok(Message(Ack, id, "", "+" + payload))
  {
    var f := "6:::" + Itoa(id) + "+" + payload;
    AckReplySplits(id, payload);
    assert f[0] == '6' && |f| >= 5;
    DecodeAckFrame(f, json);
  }

  /** An Ack frame decodes to its split: id and raw rest. */
  lemma DecodeAckFrame(f: string, json: EventJson)
    requires |f| >= 3 && f[0] == '6' && SlicesInBounds(f) && AckAndData(f).Ok?
    ensures Decode(f, json) == Ok(Message(Ack, AckAndData(f).value.ack, "", AckAndData(f).value.rest))
  {
    assert InboundType(f) == Ok(Ack);
    assert Decode(f, json) == DecodeAck(f);
  }

  /** The ack-and-rest split of a reply frame. */
  lemma AckReplySplits(id: int, payload: string)
    requires IsInt64(id)
    ensures var f := "6:::" + Itoa(id) + "+" + payload;
            SlicesInBounds(f) && AckAndData(f) == Ok(AckAndRest(id, "+" + payload))
  {
    var digits := Itoa(id);
    var head := "6:::" + digits;
    var f := "6:::" + digits + "+" + payload;
    assert f == head + ['+'] + payload;
    assert '+' !in head by {
      assert forall i :: 0 <= i < |head| ==> head[i] in ":6" || head[i] in digits;
    }
    IndexAfterPrefix(head, '+', payload);
    var p := IndexByte(f, '+');
    assert p == |head|;
    assert f[4..p] == digits;
    assert f[p..] == "+" + payload;
    AtoiItoa(id);
    assert Atoi(f[4..p]).ToResult() == Ok(id);
  }
}

=== FILE: emitter.dfy ===
/** The per-client handler registry and the firing of named events. */
module Emitter {
  import opened Errors
  import opened Handlers

  const OnConnect := "connect"
  const OnDisconnect := "disconnect"

  /** Registered handlers by event name, plus whether the library-internal
      connect/disconnect hooks are set. */
  datatype Emitter = Emitter(handlers: map<string, HandlerCaller>, connectHook: bool, disconnectHook: bool)

  /** An observable call made while firing an event. */
  datatype Effect =
    | InternalHook(event: string)
    | Invoked(event: string, args: seq<CallArg>)

  /** initMethods: an empty registry; the hooks are left as they were. */
  function InitMethods(e: Emitter): (r: Emitter)
    ensures FindHandler(r, OnConnect).None? && FindHandler(r, OnDisconnect).None?
    ensures forall ev :: FindHandler(r, ev).None?
    ensures r.connectHook == e.connectHook && r.disconnectHook == e.disconnectHook
  {
    e.(handlers := map[])
  }

  /** findHandlerForEvent: the handler registered under the name, if any. */
  function FindHandler(e: Emitter, event: string): (r: Option<HandlerCaller>)
    ensures r.Some? <==> event in e.handlers
    ensures r.Some? ==> r.value == e.handlers[event]
  {
    if event in e.handlers then Some(e.handlers[event]) else None
  }

  datatype Registered = Registered(emitter: Emitter, err: Option<Error>)

  /** On: an invalid handler is refused with its validation error and the
      registry is left alone; a valid one replaces whatever was registered
      under that name and nothing else. */
  function On(e: Emitter, event: string, fn: Shape): (r: Registered)
    ensures NewHandlerCaller(fn).Err? ==> r == Registered(e, Some(NewHandlerCaller(fn).error))
    ensures NewHandlerCaller(fn).Ok? ==>
              && r.err.None?
              && FindHandler(r.emitter, event) == Some(NewHandlerCaller(fn).value)
              && (forall other :: other != event ==> FindHandler(r.emitter, other) == FindHandler(e, other))
              && r.emitter.connectHook == e.connectHook
              && r.emitter.disconnectHook == e.disconnectHook
  {
    match NewHandlerCaller(fn)
    case Err(err) => Registered(e, Some(err))
    case Ok(c) => Registered(e.(handlers := e.handlers[event := c]), None)
  }

  /** Registering a name twice keeps only the second handler. */
  lemma LastRegistrationWins(e: Emitter, event: string, f1: Shape, f2: Shape)
    requires NewHandlerCaller(f2).Ok?
    ensures FindHandler(On(On(e, event, f1).emitter, event, f2).emitter, event) == Some(NewHandlerCaller(f2).value)
  {
  }

  /** fireEvent: the internal hook of `connect` or `disconnect` runs first,
      then the user's handler, if there is one, with the connection and an
      empty struct; with no user handler nothing more happens. */
  function FireEvent(e: Emitter, event: string): (r: seq<Effect>)
    ensures |r| <= 2
    ensures (exists i :: 0 <= i < |r| && r[i].Invoked?) <==> FindHandler(e, event).Some?
    ensures forall i :: 0 <= i < |r| && r[i].Invoked? ==>
              r[i] == Invoked(event, CallArgs(FindHandler(e, event).value, EmptyStruct)) && i == |r| - 1
    ensures forall i :: 0 <= i < |r| && r[i].InternalHook? ==>
              r[i].event == event && (event == OnConnect || event == OnDisconnect) && i == 0
    ensures (event == OnConnect && e.connectHook) || (event == OnDisconnect && e.disconnectHook) <==>
              |r| > 0 && r[0].InternalHook?
  {
    var hook := if (e.connectHook && event == OnConnect) || (e.disconnectHook && event == OnDisconnect)
                then [InternalHook(event)] else [];
    match FindHandler(e, event)
    case None => hook
    case Some(h) =>
      var r := hook + [Invoked(event, CallArgs(h, EmptyStruct))];
      assert r[|r| - 1].Invoked?;
      r
  }
}

=== FILE: encoder.dfy ===
/** Outbound framing: a Message becomes socket.io 0.9 wire text. The client
    only ever sends heartbeats and events. */
module Encoder {
  import opened Errors
  import opened Spec
  import opened Messages
  import opened GoStrconv
  import opened GoStrings

  /** The JSON object an Event frame carries after its header. Name and args
      are spliced in verbatim, without escaping: the name sits at offset 9
      and the args right after the 10-character `","args":[`. */
  function EventObject(name: string, args: string): (o: string)
    ensures |o| == 21 + |name| + |args|
    ensures o[0] == '{' && o[|o| - 2..] == "]}"
    ensures o[9..9 + |name|] == name
    ensures o[19 + |name|..19 + |name| + |args|] == args
  {
    "{\"name\":\"" + name + "\",\"args\":[" + args + "]}"
  }

  /** The frame of an Event without an ack id: the 4-character header
      `5:::` followed by the event object. */
  function PlainEventFrame(obj: string): (f: string)
    ensures |f| == 4 + |obj|
    ensures f[..4] == "5:::" && f[4..] == obj
  {
    Code(Event) + ":::" + obj
  }

  /** `f` is an Event frame whose id, read between `5:` and the first
      `+`, is `id`, and whose object, after the `+::` that follows, is
      `obj`. */
  predicate CarriesAckId(f: string, id: int, obj: string) {
    var p := IndexByte(f, '+');
    && p == 2 + |Itoa(id)|
    && p + 3 <= |f|
    && f[..2] == "5:"
    && f[2..p] == Itoa(id)
    && f[p..p + 3] == "+::"
    && f[p + 3..] == obj
  }

  /** The frame of an Event that expects an ack: `5:`, the decimal id, then
      `+::` and the event object. The id holds no `+`, so the first `+` of
      the frame closes the id. */
  function AckedEventFrame(id: int, obj: string): (f: string)
    ensures |f| == 5 + |Itoa(id)| + |obj|
    ensures CarriesAckId(f, id, obj)
  {
    var head := Code(Event) + ":" + Itoa(id);
    assert head[..2] == "5:" && head[2..] == Itoa(id);
    assert '+' !in head by {
      assert forall i :: 0 <= i < |head| ==> head[i] == '5' || head[i] == ':' || head[i] in Itoa(id);
    }
    IndexAfterPrefix(head, '+', "::" + obj);
    var f := head + "+::" + obj;
    assert f == head + ['+'] + ("::" + obj);
    f
  }

  /** EncodeOutboundMessage. A Heartbeat is the bare code `2`; an Event is
      `5`, then `:<id>+` when it expects an ack (`:` otherwise), then `::`
      and the event object; any other kind is refused. */
  function Encode(m: Message): (r: Result<string>)
    ensures r.Ok? <==> m.kind == Heartbeat || m.kind == Event
    ensures r.Err? ==> r.error == ProtocolUnexpectedOutboundMessageType
    ensures m.kind == Heartbeat ==> r.value == Code(Heartbeat)
    ensures m.kind == Event ==>
              && |r.value| >= 4 + |EventObject(m.eventName, m.args)|
              && r.value[0] == '5'
              && r.value[|r.value| - |EventObject(m.eventName, m.args)|..] == EventObject(m.eventName, m.args)
    ensures m.kind == Event && !m.ExpectsAck() ==>
              r.value[..4] == "5:::" && r.value[4..] == EventObject(m.eventName, m.args)
    ensures m.kind == Event && m.ExpectsAck() ==>
              CarriesAckId(r.value, m.ackId, EventObject(m.eventName, m.args))
  {
    match m.kind
    case Heartbeat => Ok(Code(Heartbeat))
    case Event =>
      var obj := EventObject(m.eventName, m.args);
      if m.ackId != 0 then
        var f := AckedEventFrame(m.ackId, obj);
        assert f[..2][0] == '5';
        Ok(f)
      else
        var f := PlainEventFrame(obj);
        assert f[..4][0] == '5';
        Ok(f)
    case _ => Err(ProtocolUnexpectedOutboundMessageType)
  }

  /** Every successful Event encoding ends with the `]}` that closes the
      args array and the object. */
  lemma EventFrameEndsWithArrayClose(m: Message)
    requires m.kind == Event
    ensures var f := Encode(m).value; |f| >= 2 && f[|f| - 2..] == "]}"
  {
    var f := Encode(m).value;
    var o := EventObject(m.eventName, m.args);
    assert f[|f| - |o|..] == o;
    assert f[|f| - 2..] == o[|o| - 2..];
  }
}

=== FILE: errors.dfy ===
/** The library's error values and the Option/Result wrappers that carry them.
    Every Go function of the core that returns `(value, error)` is modelled as
    a function returning `Result<T>`. */
module Errors {

  /** One constructor per error value the core can return. The first block
      mirrors the package's exported error variables; the last block names
      errors that come from the Go standard library or the websocket
      library, which the model does not look inside. */
  datatype Error =
    | AckListenerNotFound
    | CallerShouldBeTypeFunc
    | CallerShouldHaveTwoArgs
    | CallerFunctionReturnsTooMuch
    | SendTimeout
    | SocketOverflood
    | ProtocolUnexpectedInboundMessageType
    | ProtocolUnexpectedOutboundMessageType
    | ProtocolReceivedInvalidPacket
    | TransportOnlySupportsText
    | TransportBufferError
    | TransportEmptyPacket
      // strconv.Atoi's *NumError with ErrSyntax / ErrRange
    | NumSyntax
    | NumRange
      // encoding/json failures
    | JsonUnmarshal
    | JsonMarshal
      // any error reported by the websocket library itself
    | TransportIo

  datatype Option<+T> = None | Some(value: T)

  datatype Result<+T> = Ok(value: T) | Err(error: Error) {

    predicate IsFailure() {
      Err?
    }

    function PropagateFailure<U>(): Result<U>
      requires Err?
    {
      Err(error)
    }

    function Extract(): T
      requires Ok?
    {
      value
    }
  }
}

=== FILE: gostrconv.dfy ===
/** The pieces of Go's integer semantics and of package strconv that the
    core depends on: 64-bit wrap-around, truncating division, and the exact
    behaviour of strconv.Itoa / strconv.Atoi on a 64-bit platform. */
module GoStrconv {
  import opened Errors

  const MaxInt64: int := 0x7fff_ffff_ffff_ffff
  const MinInt64: int := -0x8000_0000_0000_0000
  const MaxUint64: int := 0xffff_ffff_ffff_ffff
  const TwoTo64: int := 0x1_0000_0000_0000_0000

  predicate IsInt64(n: int) {
    MinInt64 <= n <= MaxInt64
  }

  /** Two's-complement wrap-around of an unbounded product or sum into
      Go's `int64`. */
  function Wrap64(x: int): (r: int)
    ensures IsInt64(r)
    ensures IsInt64(x) ==> r == x
    ensures (x - r) % TwoTo64 == 0
  {
    var k := (x - MinInt64) / TwoTo64;
    assert (x - MinInt64) % TwoTo64 == x - MinInt64 - k * TwoTo64;
    (x - MinInt64) % TwoTo64 + MinInt64
  }

  /** Go's integer `/`, which truncates toward zero (Dafny's `/` is
      Euclidean and rounds negative quotients down). */
  function GoQuo(a: int, b: int): (q: int)
    requires b > 0
    ensures a >= 0 ==> 0 <= a - q * b < b
    ensures a < 0 ==> -b < a - q * b <= 0
  {
    if a >= 0 then a / b else -((-a) / b)
  }

  predicate IsDigit(c: char) {
    '0' <= c <= '9'
  }

  function DigitChar(d: int): (c: char)
    requires 0 <= d <= 9
    ensures IsDigit(c) && DigitValue(c) == d
  {
    ('0' as int + d) as char
  }

  function DigitValue(c: char): int
    requires IsDigit(c)
  {
    c as int - '0' as int
  }

  function Pow10(k: nat): (p: nat)
    ensures p >= 1
    ensures k >= 1 ==> p >= 10
  {
    if k == 0 then 1 else 10 * Pow10(k - 1)
  }

  /** Exponents add. */
  lemma {:induction false} Pow10Add(a: nat, b: nat)
    ensures Pow10(a + b) == Pow10(a) * Pow10(b)
    decreases a
  {
    if a > 0 {
      Pow10Add(a - 1, b);
      assert Pow10(a + b) == 10 * Pow10(a - 1 + b);
      TenTimes(Pow10(a - 1), Pow10(b));
    }
  }

  lemma TenTimes(x: nat, y: nat)
    ensures 10 * (x * y) == (10 * x) * y
  {
  }

  /** 10^19 is below 2^64, so no numeral of up to 19 digits overflows a
      uint64. */
  lemma Pow10NineteenFits()
    ensures Pow10(19) < TwoTo64
  {
    assert Pow10(1) == 10;
    assert Pow10(2) == 100;
    Pow10Add(2, 2);
    Pow10Add(4, 4);
    Pow10Add(8, 8);
    Pow10Add(16, 2);
    Pow10Add(18, 1);
  }

  /** Powers of ten grow with the exponent. */
  lemma {:induction false} Pow10Monotone(a: nat, b: nat)
    requires a <= b
    ensures Pow10(a) <= Pow10(b)
    decreases b
  {
    if a < b {
      Pow10Monotone(a, b - 1);
    }
  }

  /** The shortest decimal numeral of a natural number. */
  function Digits(m: nat): (s: string)
    ensures |s| >= 1
    ensures forall i :: 0 <= i < |s| ==> IsDigit(s[i])
    decreases m
  {
    if m < 10 then [DigitChar(m)] else Digits(m / 10) + [DigitChar(m % 10)]
  }

  /** strconv.Itoa: a minus sign for negative numbers, then the digits; it
      never produces a `+` or a leading sign for non-negative numbers. */
  function Itoa(n: int): (s: string)
    ensures |s| >= 1
    ensures n >= 0 <==> IsDigit(s[0])
    ensures n < 0 <==> s[0] == '-'
    ensures forall i :: 0 < i < |s| ==> IsDigit(s[i])
    ensures '+' !in s
  {
    if n < 0 then "-" + Digits(-n) else Digits(n)
  }

  /** Outcome of strconv.ParseUint's left-to-right base-10 scan. */
  datatype Scan = Scanned(n: nat) | ScanSyntax | ScanRange

  /** The scan loop of strconv.ParseUint (base 10, 64 bits): characters are
      consumed left to right and the first offending one decides, so a
      numeral that overflows before a bad character is a range error, not a
      syntax error. */
  function ScanUint(s: string, acc: nat): (r: Scan)
    requires acc <= MaxUint64
    ensures r.Scanned? ==> r.n <= MaxUint64 && forall i :: 0 <= i < |s| ==> IsDigit(s[i])
    ensures (forall i :: 0 <= i < |s| ==> IsDigit(s[i])) ==> !r.ScanSyntax?
    ensures (acc + 1) * Pow10(|s|) <= TwoTo64 ==> !r.ScanRange?
    decreases |s|
  {
    if |s| == 0 then Scanned(acc)
    else if !IsDigit(s[0]) then ScanSyntax
    else if acc * 10 + DigitValue(s[0]) > MaxUint64 then
      ScanStepBound(acc, DigitValue(s[0]), |s|);
      ScanRange
    else
      ScanStepBound(acc, DigitValue(s[0]), |s|);
      ScanUint(s[1..], acc * 10 + DigitValue(s[0]))
  }

  /** One more digit keeps the room a scan has left: the next value plus
      one, scaled by the remaining length, stays within the current one. */
  lemma ScanStepBound(acc: nat, d: nat, k: nat)
    requires d <= 9 && k >= 1
    ensures acc * 10 + d + 1 <= (acc + 1) * Pow10(k)
    ensures (acc * 10 + d + 1) * Pow10(k - 1) <= (acc + 1) * Pow10(k)
  {
    var p := Pow10(k - 1);
    assert Pow10(k) == 10 * p;
    assert (acc + 1) * Pow10(k) == (acc + 1) * 10 * p;
    assert (acc * 10 + d + 1) * p <= (acc + 1) * 10 * p;
    assert (acc + 1) * 10 <= (acc + 1) * 10 * p;
  }

  datatype NumError = ErrSyntax | ErrRange

  /** strconv.Atoi returns a value even when it reports an error: 0 on a
      syntax error, the int64 bound of the numeral's sign on a range error. */
  datatype AtoiResult = AtoiResult(value: int, err: Option<NumError>)
  {
    function ToResult(): (r: Result<int>)
      ensures r.Ok? <==> err.None?
      ensures r.Ok? ==> r.value == value
    {
      match err
      case None => Ok(value)
      case Some(ErrSyntax) => Err(NumSyntax)
      case Some(ErrRange) => Err(NumRange)
    }
  }

  /** What strconv.Atoi reads as a numeral: an optional `+` or `-`, then one
      or more decimal digits, nothing else (no spaces, no underscores). */
  predicate IsNumeral(s: string) {
    var body := Unsigned(s);
    |body| > 0 && forall i :: 0 <= i < |body| ==> IsDigit(body[i])
  }

  /** The text after a leading `+` or `-`, if there is one. */
  function Unsigned(s: string): string
  {
    if |s| > 0 && (s[0] == '+' || s[0] == '-') then s[1..] else s
  }

  /** The positional value of a run of decimal digits: the leading digit
      weighted by ten to the number of digits after it, plus the value of
      the rest. Leading zeros add nothing. */
  function DecimalValue(t: string): (v: nat)
    requires forall i :: 0 <= i < |t| ==> IsDigit(t[i])
    decreases |t|
  {
    if |t| == 0 then 0 else DigitValue(t[0]) * Pow10(|t| - 1) + DecimalValue(t[1..])
  }

  /** The integer a numeral denotes: its digits' value, negated after a
      leading `-`. It may lie outside the int64 range. */
  function NumeralValue(s: string): int
    requires IsNumeral(s)
  {
    if |s| > 0 && s[0] == '-' then -(DecimalValue(Unsigned(s)) as int) else DecimalValue(Unsigned(s))
  }

  /** A scan over digits only ends in the value the whole run denotes after
      the accumulator, or in a range error exactly when that value exceeds
      the uint64 range: once a prefix overflows, every longer one does. */
  lemma {:induction false} ScanAllDigits(t: string, acc: nat)
    requires acc <= MaxUint64
    requires forall i :: 0 <= i < |t| ==> IsDigit(t[i])
    ensures var total := acc * Pow10(|t|) + DecimalValue(t);
            ScanUint(t, acc) == if total <= MaxUint64 then Scanned(total) else ScanRange
    decreases |t|
  {
    if |t| == 0 {
      assert acc * Pow10(|t|) + DecimalValue(t) == acc;
    } else {
      var d := DigitValue(t[0]);
      var rest := t[1..];
      var p := Pow10(|rest|);
      var v := DecimalValue(rest);
      assert Pow10(|t|) == 10 * p;
      assert DecimalValue(t) == d * p + v;
      ShiftLeading(acc, d, p, v);
      if acc * 10 + d <= MaxUint64 {
        ScanAllDigits(rest, acc * 10 + d);
      } else {
        MulMonotone(acc * 10 + d, p);
      }
    }
  }

  /** Taking the leading digit into the accumulator keeps the total. */
  lemma ShiftLeading(acc: nat, d: nat, p: nat, v: nat)
    ensures acc * (10 * p) + (d * p + v) == (acc * 10 + d) * p + v
  {
  }

  /** strconv.Atoi with Go's 64-bit `int`. Only a numeral succeeds. A
      numeral never gives a syntax error, and a non-numeral short enough
      that no digit run in it can overflow always does; a longer one may
      overflow before its offending character and give a range error, as
      ParseUint's left-to-right scan does. A range error clamps to the int64
      bound of the numeral's sign, a syntax error gives 0. A numeral whose
      value is an int64 reads as that value, leading zeros and a `+` or a
      `-` before zero included; one whose value is not is a range error. */
  function Atoi(s: string): (r: AtoiResult)
    ensures IsInt64(r.value)
    ensures IsNumeral(s) && IsInt64(NumeralValue(s)) ==> r == AtoiResult(NumeralValue(s), None)
    ensures IsNumeral(s) && !IsInt64(NumeralValue(s)) ==> r.err == Some(ErrRange)
    ensures r.err.None? ==> IsNumeral(s)
    ensures IsNumeral(s) ==> r.err != Some(ErrSyntax)
    ensures !IsNumeral(s) && |s| <= 19 ==> r.err == Some(ErrSyntax)
    ensures r.err == Some(ErrSyntax) ==> r.value == 0
    ensures r.err == Some(ErrRange) ==> r.value == (if s[0] == '-' then MinInt64 else MaxInt64)
    ensures |s| == 0 ==> r.err == Some(ErrSyntax)
    ensures r.err.None? && r.value < 0 ==> s[0] == '-'
  {
    if |s| == 0 then AtoiResult(0, Some(ErrSyntax))
    else
      var neg := s[0] == '-';
      var body := Unsigned(s);
      if |body| == 0 then AtoiResult(0, Some(ErrSyntax))
      else
        assert |s| <= 19 ==> (0 + 1) * Pow10(|body|) <= TwoTo64 by {
          if |s| <= 19 {
            Pow10Monotone(|body|, 19);
            Pow10NineteenFits();
          }
        }
        assert IsNumeral(s) ==> ScanUint(body, 0) == (if DecimalValue(body) <= MaxUint64 then Scanned(DecimalValue(body)) else ScanRange) by {
          if IsNumeral(s) {
            ScanAllDigits(body, 0);
          }
        }
        match ScanUint(body, 0)
        case ScanSyntax => AtoiResult(0, Some(ErrSyntax))
        case ScanRange => AtoiResult(if neg then MinInt64 else MaxInt64, Some(ErrRange))
        case Scanned(u) =>
          if !neg && u > MaxInt64 then AtoiResult(MaxInt64, Some(ErrRange))
          else if neg && u > -MinInt64 then AtoiResult(MinInt64, Some(ErrRange))
          else AtoiResult(if neg then 0 - u as int else u as int, None)
  }

  /** Appending the last digit of m to the scan of m / 10 lands on m. */
  lemma ShiftDigit(acc: nat, p: nat, m: nat)
    ensures (acc * p + m / 10) * 10 + m % 10 == acc * (10 * p) + m
  {
    assert m == (m / 10) * 10 + m % 10;
    assert (acc * p + m / 10) * 10 == acc * (10 * p) + (m / 10) * 10;
  }

  lemma MulMonotone(a: nat, p: nat)
    requires p >= 1
    ensures a <= a * p
  {
  }

  /** One digit more: the scan goes on from the accumulator shifted by it. */
  lemma ScanOne(c: char, t: string, acc: nat)
    requires IsDigit(c) && acc * 10 + DigitValue(c) <= MaxUint64
    ensures ScanUint([c] + t, acc) == ScanUint(t, acc * 10 + DigitValue(c))
  {
    assert ([c] + t)[0] == c && ([c] + t)[1..] == t;
  }

  /** Scanning a numeral followed by more text continues from the numeral's
      value, as long as no prefix overflows. */
  lemma {:induction false} ScanDigits(m: nat, t: string, acc: nat)
    requires acc * Pow10(|Digits(m)|) + m <= MaxUint64
    ensures acc <= MaxUint64
    ensures ScanUint(Digits(m) + t, acc) == ScanUint(t, acc * Pow10(|Digits(m)|) + m)
    decreases m
  {
    var d := Digits(m);
    var p := Pow10(|d|);
    MulMonotone(acc, p);
    if m < 10 {
      assert d == [DigitChar(m)];
      assert p == 10;
      ScanOne(DigitChar(m), t, acc);
    } else {
      var hd := Digits(m / 10);
      var q := Pow10(|hd|);
      var c := DigitChar(m % 10);
      assert d == hd + [c];
      assert d + t == hd + ([c] + t);
      assert p == 10 * q;
      var a' := acc * q + m / 10;
      ShiftDigit(acc, q, m);
      assert a' * 10 + m % 10 == acc * p + m;
      ScanDigits(m / 10, [c] + t, acc);
      ScanOne(c, t, a');
    }
  }

  /** A numeral alone scans to its value. */
  lemma ScanNumeral(m: nat)
    requires m <= MaxUint64
    ensures ScanUint(Digits(m), 0) == Scanned(m)
  {
    var p := Pow10(|Digits(m)|);
    assert 0 * p + m == m;
    ScanDigits(m, "", 0);
    assert Digits(m) + "" == Digits(m);
  }

  /** Atoi inverts Itoa on the whole int64 range, with no error. */
  lemma AtoiItoa(n: int)
    requires IsInt64(n)
    ensures Atoi(Itoa(n)) == AtoiResult(n, None)
  {
    if n < 0 {
      var m: nat := -n;
      ScanNumeral(m);
      var s := Itoa(n);
      assert s == "-" + Digits(m) && s[0] == '-' && s[1..] == Digits(m);
    } else {
      ScanNumeral(n);
      assert Itoa(n) == Digits(n);
    }
  }

  /** The scan decides at the first offending character, so a digit run
      that overflows before a bad character is a range error: a numeral
      one `9` away from overflow, then that `9`, then any text at all (say
      `x`, which makes it no numeral) reads as ErrRange clamped to
      MaxInt64. */
  lemma OverflowBeforeBadCharacter(m: nat, t: string)
    requires m <= MaxUint64 < m * 10 + 9
    ensures Atoi(Digits(m) + ['9'] + t) == AtoiResult(MaxInt64, Some(ErrRange))
    ensures (exists i :: 0 <= i < |t| && !IsDigit(t[i])) ==> !IsNumeral(Digits(m) + ['9'] + t)
  {
    var s := Digits(m) + ['9'] + t;
    ScanDigits(m, ['9'] + t, 0);
    assert 0 * Pow10(|Digits(m)|) + m == m;
    assert Digits(m) + (['9'] + t) == s;
    assert ScanUint(['9'] + t, m) == ScanRange;
    assert s[0] == Digits(m)[0];
    RangeWithoutSign(s);
    if i :| 0 <= i < |t| && !IsDigit(t[i]) {
      assert s[|Digits(m)| + 1 + i] == t[i];
      assert Unsigned(s) == s;
    }
  }

  /** Text starting with a digit whose scan overflows reads as MaxInt64
      with a range error. */
  lemma RangeWithoutSign(s: string)
    ensures |s| > 0 && IsDigit(s[0]) && ScanUint(s, 0) == ScanRange ==>
            Atoi(s) == AtoiResult(MaxInt64, Some(ErrRange))
  {
    if |s| > 0 && IsDigit(s[0]) {
      assert Unsigned(s) == s;
    }
  }
}

=== FILE: gostrings.dfy ===
/** The parts of Go's package strings the core uses, on byte strings. */
module GoStrings {

  /** strings.IndexByte: the index of the first `c` in `s`, or -1. */
  function IndexByte(s: string, c: char): (i: int)
    ensures -1 <= i < |s|
    ensures i == -1 <==> c !in s
    ensures i >= 0 ==> s[i] == c && c !in s[..i]
  {
    if |s| == 0 then -1
    else if s[0] == c then 0
    else
      var j := IndexByte(s[1..], c);
      if j == -1 then -1 else j + 1
  }

  /** The first occurrence of `c` in a text built as `a + [c] + b` is the one
      after `a` when `a` holds none. */
  lemma IndexAfterPrefix(a: string, c: char, b: string)
    requires c !in a
    ensures IndexByte(a + [c] + b, c) == |a|
  {
    var s := a + [c] + b;
    assert s[|a|] == c;
    assert s[..|a|] == a;
  }

  /** strings.Split with a one-byte separator: the pieces between
      consecutive separators, so there is always one piece more than there
      are separators. */
  function Split(s: string, sep: char): (parts: seq<string>)
    ensures |parts| >= 1
    ensures forall i :: 0 <= i < |parts| ==> sep !in parts[i]
    decreases |s|
  {
    var i := IndexByte(s, sep);
    if i == -1 then [s] else [s[..i]] + Split(s[i + 1..], sep)
  }

  /** strings.Join with a one-byte separator. */
  function Join(parts: seq<string>, sep: char): string
    requires |parts| >= 1
  {
    if |parts| == 1 then parts[0] else parts[0] + [sep] + Join(parts[1..], sep)
  }

  /** Joining the pieces of a split gives the text back. */
  lemma {:induction false} JoinSplit(s: string, sep: char)
    ensures Join(Split(s, sep), sep) == s
    decreases |s|
  {
    var i := IndexByte(s, sep);
    if i == -1 {
      assert Split(s, sep) == [s];
    } else {
      var rest := s[i + 1..];
      var tail := Split(rest, sep);
      var parts := Split(s, sep);
      assert parts == [s[..i]] + tail;
      JoinSplit(rest, sep);
      assert |parts| > 1 && parts[1..] == tail;
      assert Join(parts, sep) == s[..i] + [sep] + Join(tail, sep);
      assert s == s[..i] + [sep] + rest;
    }
  }

  /** Splitting a separator-free head, a separator and a tail gives the head
      and then the pieces of the tail. */
  lemma SplitAfterHead(head: string, sep: char, tail: string)
    requires sep !in head
    ensures Split(head + [sep] + tail, sep) == [head] + Split(tail, sep)
  {
    var s := head + [sep] + tail;
    IndexAfterPrefix(head, sep, tail);
    assert s[..|head|] == head;
    assert s[|head| + 1..] == tail;
  }

  /** Splitting the join of separator-free pieces gives the pieces back. */
  lemma {:induction false} SplitJoin(parts: seq<string>, sep: char)
    requires |parts| >= 1
    requires forall i :: 0 <= i < |parts| ==> sep !in parts[i]
    ensures Split(Join(parts, sep), sep) == parts
    decreases |parts|
  {
    if |parts| > 1 {
      var tail := parts[1..];
      assert Join(parts, sep) == parts[0] + [sep] + Join(tail, sep);
      SplitAfterHead(parts[0], sep, Join(tail, sep));
      SplitJoin(tail, sep);
      assert parts == [parts[0]] + tail;
    } else {
      assert IndexByte(parts[0], sep) == -1;
      assert Join(parts, sep) == parts[0];
    }
  }

  /** A separator-free head followed by nothing or by a separator is the
      first piece of the split, and the split continues with the rest. */
  lemma SplitHead(head: string, sep: char, rest: string)
    requires sep !in head
    requires rest == [] || rest[0] == sep
    ensures Split(head + rest, sep)[0] == head
    ensures rest != [] ==> Split(head + rest, sep) == [head] + Split(rest[1..], sep)
  {
    if rest == [] {
      assert head + rest == head;
    } else {
      assert head + rest == head + [sep] + rest[1..];
      SplitAfterHead(head, sep, rest[1..]);
    }
  }

  predicate HasPrefix(s: string, p: string) {
    |p| <= |s| && s[..|p|] == p
  }

  /** strings.Index: the position of the first occurrence of `sub`, or -1;
      the empty string occurs at 0. */
  function Index(s: string, sub: string): (i: int)
    ensures -1 <= i <= |s| - |sub| || i == -1
    ensures i >= 0 ==> HasPrefix(s[i..], sub)
    ensures i >= 0 ==> forall k :: 0 <= k < i ==> !HasPrefix(s[k..], sub)
    ensures i == -1 ==> forall k :: 0 <= k <= |s| ==> !HasPrefix(s[k..], sub)
    ensures HasPrefix(s, sub) ==> i == 0
    decreases |s|
  {
    if HasPrefix(s, sub) then 0
    else if |s| == 0 then -1
    else
      var j := Index(s[1..], sub);
      assert forall k :: 1 <= k <= |s| ==> s[k..] == s[1..][k - 1..];
      if j == -1 then -1 else j + 1
  }

  /** strings.Replace(s, from, to, 1): the first occurrence of `from` becomes
      `to`; an empty `from` matches at the start. */
  function ReplaceFirst(s: string, from: string, to: string): (r: string)
    ensures Index(s, from) == -1 ==> r == s
  {
    if from == to then s
    else
      var i := Index(s, from);
      if i == -1 then s else s[..i] + to + s[i + |from|..]
  }

  /** When the text starts with `from`, only that leading copy is replaced. */
  lemma ReplaceLeading(s: string, from: string, to: string)
    requires HasPrefix(s, from)
    ensures ReplaceFirst(s, from, to) == to + s[|from|..]
  {
    if from == to {
      assert s == s[..|from|] + s[|from|..];
    } else {
      assert Index(s, from) == 0;
      assert s[..0] == [];
    }
  }

  /** Replacing the first copy of a text's leading part replaces that part. */
  lemma ReplacePrefix(head: string, rest: string, to: string)
    ensures ReplaceFirst(head + rest, head, to) == to + rest
  {
    assert (head + rest)[..|head|] == head;
    ReplaceLeading(head + rest, head, to);
    assert (head + rest)[|head|..] == rest;
  }
}

=== FILE: handlers.dfy ===
/** Handler validation and invocation. The Go code inspects a callback's
    signature by reflection; here a callback is described by its shape. */
module Handlers {
  import opened Errors

  /** A Go type, as far as the dispatcher cares: a name to decode into. */
  datatype TypeName = TypeName(name: string)

  /** What reflection sees of a handler: either not a function at all, or a
      function with its parameter types and its number of results. */
  datatype Shape = NotFunc | Func(params: seq<TypeName>, numOut: nat)

  /** A validated handler. `args` is the type of the payload parameter when
      the handler takes one; `out` records that it returns one value. */
  datatype HandlerCaller = HandlerCaller(args: Option<TypeName>, out: bool)
  {
    predicate ArgsPresent() {
      args.Some?
    }
  }

  /** A value handed to a handler: the empty struct the library passes to
      connect/disconnect handlers, or a payload decoded into a type. */
  datatype ArgValue = EmptyStruct | Decoded(typ: TypeName, json: string)

  /** One actual argument of a handler call: the connection itself, or a
      payload value. */
  datatype CallArg = ConnArg | PayloadArg(value: ArgValue)

  /** NewHandlerCaller. The checks run in this order: not a function, then
      more than one result, then a parameter count other than 1 or 2. */
  function NewHandlerCaller(fn: Shape): (r: Result<HandlerCaller>)
    ensures fn.NotFunc? ==> r == Err(CallerShouldBeTypeFunc)
    ensures fn.Func? && fn.numOut > 1 ==> r == Err(CallerFunctionReturnsTooMuch)
    ensures fn.Func? && fn.numOut <= 1 && (|fn.params| == 0 || |fn.params| > 2) ==>
              r == Err(CallerShouldHaveTwoArgs)
    ensures r.Ok? <==> fn.Func? && fn.numOut <= 1 && 1 <= |fn.params| <= 2
    ensures r.Ok? ==> (r.value.out <==> fn.numOut == 1)
    ensures r.Ok? ==> (r.value.ArgsPresent() <==> |fn.params| == 2)
    ensures r.Ok? && |fn.params| == 2 ==> r.value.args == Some(fn.params[1])
  {
    match fn
    case NotFunc => Err(CallerShouldBeTypeFunc)
    case Func(params, numOut) =>
      if numOut > 1 then Err(CallerFunctionReturnsTooMuch)
      else if |params| == 1 then Ok(HandlerCaller(None, numOut == 1))
      else if |params| == 2 then Ok(HandlerCaller(Some(params[1]), numOut == 1))
      else Err(CallerShouldHaveTwoArgs)
  }

  /** The argument list callFunc passes: the connection, then the payload
      only when the handler declares a payload parameter. */
  function CallArgs(h: HandlerCaller, arg: ArgValue): (a: seq<CallArg>)
    ensures |a| >= 1 && a[0] == ConnArg
    ensures |a| == 2 <==> h.ArgsPresent()
    ensures |a| == 2 ==> a[1] == PayloadArg(arg)
    ensures |a| <= 2
  {
    var both := [ConnArg, PayloadArg(arg)];
    if h.ArgsPresent() then both else both[0..1]
  }

  /** For every accepted shape, callFunc passes exactly as many arguments
      as the function declares parameters. Validation checks only the
      count, not the types, so the call may still be ill-typed. */
  lemma CallMatchesArity(fn: Shape, arg: ArgValue)
    requires NewHandlerCaller(fn).Ok?
    ensures |CallArgs(NewHandlerCaller(fn).value, arg)| == |fn.params|
  {
  }
}

=== FILE: handshake.dfy ===
/** The socket.io 0.9 handshake reply: `token:heartbeat:close:transports`,
    a colon-separated text whose first three fields the client keeps. */
module Handshake {
  import opened Errors
  import opened GoStrconv
  import opened GoStrings

  /** The session parameters: the token naming the websocket endpoint, and
      the two timeouts in seconds as the server wrote them. */
  datatype HandshakeResponse = HandshakeResponse(token: string, heartbeatTimeout: int, connectionTimeout: int)

  /** The parse of a handshake body. The token is the text before the first
      `:`; each timeout is strconv.Atoi of its field with the error thrown
      away: a numeral reads as its value when that is an int64, a syntax
      error leaves 0 and a range error the int64 bound of the field's sign.
      Fields past the third are ignored.
      A body with fewer than three fields makes the Go code index past the
      end of the split, which panics. */
  function ParseHandshake(body: string): (hr: HandshakeResponse)
    requires |Split(body, ':')| >= 3
    ensures ':' !in hr.token
    ensures HasPrefix(body, hr.token + ":")
    ensures IsInt64(hr.heartbeatTimeout) && IsInt64(hr.connectionTimeout)
    ensures var f := Split(body, ':')[1];
            IsNumeral(f) && IsInt64(NumeralValue(f)) ==> hr.heartbeatTimeout == NumeralValue(f)
    ensures var f := Split(body, ':')[2];
            IsNumeral(f) && IsInt64(NumeralValue(f)) ==> hr.connectionTimeout == NumeralValue(f)
    ensures Atoi(Split(body, ':')[1]).err == Some(ErrSyntax) ==> hr.heartbeatTimeout == 0
    ensures Atoi(Split(body, ':')[2]).err == Some(ErrSyntax) ==> hr.connectionTimeout == 0
    ensures var f := Split(body, ':')[1];
            Atoi(f).err == Some(ErrRange) ==> hr.heartbeatTimeout == (if f[0] == '-' then MinInt64 else MaxInt64)
    ensures var f := Split(body, ':')[2];
            Atoi(f).err == Some(ErrRange) ==> hr.connectionTimeout == (if f[0] == '-' then MinInt64 else MaxInt64)
  {
    var parts := Split(body, ':');
    assert IndexByte(body, ':') != -1;
    HandshakeResponse(parts[0], Atoi(parts[1]).value, Atoi(parts[2]).value)
  }

  /** The decimal form of an int has no `:` in it. */
  lemma NoColonInNumeral(n: int)
    ensures ':' !in Itoa(n)
  {
    var s := Itoa(n);
    forall i | 0 <= i < |s|
      ensures s[i] != ':'
    {
      if i == 0 {
        assert IsDigit(s[0]) || s[0] == '-';
      } else {
        assert IsDigit(s[i]);
      }
    }
  }

  /** A well-formed reply parses back to what the server wrote: a token
      without `:`, two int64 timeouts in decimal, then nothing or any
      further `:`-led fields. */
  lemma ParseWellFormed(token: string, heartbeat: int, close: int, rest: string)
    requires ':' !in token
    requires IsInt64(heartbeat) && IsInt64(close)
    requires rest == [] || rest[0] == ':'
    ensures var body := token + ":" + Itoa(heartbeat) + ":" + Itoa(close) + rest;
            && |Split(body, ':')| >= 3
            && ParseHandshake(body) == HandshakeResponse(token, heartbeat, close)
  {
    NoColonInNumeral(heartbeat);
    NoColonInNumeral(close);
    ReplyFields(token, Itoa(heartbeat), Itoa(close), rest);
    AtoiItoa(heartbeat);
    AtoiItoa(close);
  }

  /** The first three fields of `a:b:c` followed by nothing or by more
      `:`-led fields are `a`, `b` and `c`. */
  lemma ReplyFields(a: string, b: string, c: string, rest: string)
    requires ':' !in a && ':' !in b && ':' !in c
    requires rest == [] || rest[0] == ':'
    ensures var parts := Split(a + ":" + b + ":" + c + rest, ':');
            |parts| >= 3 && parts[0] == a && parts[1] == b && parts[2] == c
  {
    var tail := c + rest;
    var mid := b + [':'] + tail;
    assert a + ":" + b + ":" + c + rest == a + [':'] + mid;
    SplitAfterHead(a, ':', mid);
    SplitAfterHead(b, ':', tail);
    SplitHead(c, ':', rest);
    var inner := Split(tail, ':');
    assert Split(mid, ':') == [b] + inner;
    assert Split(a + [':'] + mid, ':') == [a] + ([b] + inner);
  }
}

=== FILE: message.dfy ===
/** The internal frame record shared by encoder, decoder and dispatcher. */
module Messages {
  import opened Spec

  /** One socket.io 0.9 frame, inbound or outbound.
      `ackId` 0 means the frame carries no ack id; `eventName` is only
      meaningful on Event frames; `args` is meant to be JSON array text
      (outbound: the array's contents, inbound: the whole array), except on
      decoded Ack frames, whose args keep the leading `+`. */
  datatype Message = Message(kind: FrameType, ackId: int, eventName: string, args: string)
  {
    predicate ExpectsAck() {
      ackId != 0
    }
  }
}

=== FILE: spec.dfy ===
/** The socket.io 0.9 frame-type code table: the first character of every
    frame names its kind. */
module Spec {
  import opened Errors

  /** The nine kinds of the protocol revision; the client only produces or
      accepts a subset of them. */
  datatype FrameType =
    | Disconnect
    | Connect
    | Heartbeat
    | TextMessage
    | JsonMessage
    | Event
    | Ack
    | ErrorFrame
    | Noop

  /** The wire code of a kind. Each code is one decimal digit and the kind
      can be read back from it, so the table is injective. */
  function Code(t: FrameType): (c: string)
    ensures |c| == 1
    ensures '0' <= c[0] <= '8'
    ensures KindOf(c[0]) == Some(t)
  {
    match t
    case Disconnect => "0"
    case Connect => "1"
    case Heartbeat => "2"
    case TextMessage => "3"
    case JsonMessage => "4"
    case Event => "5"
    case Ack => "6"
    case ErrorFrame => "7"
    case Noop => "8"
  }

  /** The kind a code character names, if any. */
  function KindOf(ch: char): Option<FrameType>
  {
    match ch
    case '0' => Some(Disconnect)
    case '1' => Some(Connect)
    case '2' => Some(Heartbeat)
    case '3' => Some(TextMessage)
    case '4' => Some(JsonMessage)
    case '5' => Some(Event)
    case '6' => Some(Ack)
    case '7' => Some(ErrorFrame)
    case '8' => Some(Noop)
    case _ => None
  }

  /** The table is a bijection between the nine kinds and the digits 0..8. */
  lemma CodeTableBijective(ch: char)
    ensures KindOf(ch).Some? <==> '0' <= ch <= '8'
    ensures KindOf(ch).Some? ==> Code(KindOf(ch).value) == [ch]
  {
  }

  /** Two kinds with the same code are the same kind. */
  lemma CodeInjective(s: FrameType, t: FrameType)
    ensures Code(s) == Code(t) ==> s == t
  {
    if Code(s) == Code(t) {
      assert KindOf(Code(s)[0]) == KindOf(Code(t)[0]);
    }
  }

  /** The two kinds whose frames carry data after the header, and the code
      the writer and the close sentinel test for. */
  lemma DistinguishedCodes()
    ensures Code(Event) == "5" && Code(Ack) == "6"
    ensures Code(Disconnect) == "0" && Code(Heartbeat) == "2"
  {
  }
}

=== FILE: transport.dfy ===
/** The websocket transport: its default timings, the timings and dial
    address Connect derives from the handshake, and the checks GetNextMsg
    applies to each inbound websocket message. */
module Transport {
  import opened Errors
  import opened GoStrconv
  import opened GoStrings
  import opened Handshake
  import opened Connection

  /** The read/write buffer size NewConnection sets: 32 KiB. */
  const DefaultBufferSize := 1024 * 32

  /** time.Second, in nanoseconds. */
  const Second := 1_000_000_000

  /** The transport settings; every duration is an int64 count of
      nanoseconds. */
  datatype WebsocketTransport = WebsocketTransport(
    heartbeatInterval: int,
    heartbeatTimeout: int,
    receiveTimeout: int,
    sendTimeout: int,
    connectionCloseTimeout: int,
    bufferSize: int)

  /** NewConnection: the default buffer size and every duration zero. */
  function NewConnection(): (t: WebsocketTransport)
    ensures t.bufferSize == 32768
    ensures t.heartbeatInterval == 0 && t.heartbeatTimeout == 0
    ensures t.receiveTimeout == 0 && t.sendTimeout == 0 && t.connectionCloseTimeout == 0
  {
    WebsocketTransport(0, 0, 0, 0, 0, DefaultBufferSize)
  }

  /** The websocket scheme for a URL scheme: `wss` for `https` only. */
  function WsScheme(scheme: string): (ws: string)
    ensures ws == "wss" <==> scheme == "https"
    ensures ws != "wss" ==> ws == "ws"
  {
    if scheme == "https" then "wss" else "ws"
  }

  /** time.Duration(n) * time.Second: an int64 product, which wraps
      around modulo 2^64 when `n` seconds do not fit in int64
      nanoseconds. */
  function Seconds(n: int): (d: int)
    ensures IsInt64(d)
    ensures IsInt64(n * Second) ==> d == n * Second
    ensures !IsInt64(n * Second) ==> d != n * Second
    ensures (n * Second - d) % TwoTo64 == 0
  {
    Wrap64(n * Second)
  }

  /** The timings Connect derives from the handshake: heartbeat, send and
      receive timeouts all equal the heartbeat timeout, the heartbeat
      interval is half of it (Go integer division, truncating toward zero),
      and the close timeout is the connection timeout. The buffer size is
      kept. */
  function ApplySession(t: WebsocketTransport, hr: HandshakeResponse): (r: WebsocketTransport)
    ensures r.heartbeatTimeout == r.sendTimeout == r.receiveTimeout == Seconds(hr.heartbeatTimeout)
    ensures r.connectionCloseTimeout == Seconds(hr.connectionTimeout)
    ensures r.heartbeatInterval == Seconds(GoQuo(hr.heartbeatTimeout, 2))
    ensures r.bufferSize == t.bufferSize
  {
    var timeout := Seconds(hr.heartbeatTimeout);
    t.(heartbeatTimeout := timeout,
       heartbeatInterval := Seconds(GoQuo(hr.heartbeatTimeout, 2)),
       connectionCloseTimeout := Seconds(hr.connectionTimeout),
       sendTimeout := timeout,
       receiveTimeout := timeout)
  }

  /** When the heartbeat timeout fits in int64 nanoseconds, two heartbeat
      intervals make up the timeout exactly for an even number of seconds
      and fall one second short of it (in magnitude) for an odd one; a
      non-negative timeout gives an interval between zero and the
      timeout. */
  lemma IntervalIsHalfTimeout(t: WebsocketTransport, hr: HandshakeResponse)
    requires IsInt64(hr.heartbeatTimeout * Second)
    ensures var r := ApplySession(t, hr);
            && (hr.heartbeatTimeout % 2 == 0 ==> 2 * r.heartbeatInterval == r.heartbeatTimeout)
            && (hr.heartbeatTimeout % 2 == 1 && hr.heartbeatTimeout > 0 ==>
                  r.heartbeatTimeout - 2 * r.heartbeatInterval == Second)
            && (hr.heartbeatTimeout % 2 == 1 && hr.heartbeatTimeout < 0 ==>
                  2 * r.heartbeatInterval - r.heartbeatTimeout == Second)
            && (hr.heartbeatTimeout >= 0 ==> 0 <= r.heartbeatInterval <= r.heartbeatTimeout)
  {
    var h := hr.heartbeatTimeout;
    var q := GoQuo(h, 2);
    assert -h <= 2 * q <= h || h <= 2 * q <= -h;
    assert IsInt64(q * Second);
    assert Seconds(q) == q * Second;
    assert Seconds(h) == h * Second;
  }

  /** A URL after net/url parsing, reduced to the parts Connect uses: the
      scheme, the host, the path, the query (with the flag url.Parse sets
      for a `?` followed by nothing) and the fragment. `omitHost` is the
      flag url.Parse sets for `scheme:/path`, an empty authority that is
      not printed back. */
  datatype Url = Url(
    scheme: string,
    omitHost: bool,
    host: string,
    path: string,
    forceQuery: bool,
    rawQuery: string,
    fragment: string)

  /** A path that starts with one `/` and not two, as the websocket path
      does. */
  predicate RootedPath(path: string) {
    |path| >= 2 && path[0] == '/' && path[1] != '/'
  }

  /** Whether url.URL.String writes `//` and the host: when there is a
      scheme or a host, unless url.Parse marked an empty host as omitted. */
  predicate HasAuthority(u: Url) {
    (u.scheme != [] || u.host != []) && !(u.omitHost && u.host == [])
  }

  /** url.URL.String for a URL without user info or opaque part whose path
      is rooted: `scheme:` when there is a scheme, `//host` when HasAuthority
      holds, the path, `?query` and `#fragment`. A URL with neither scheme
      nor host prints without `//`. */
  function UrlString(u: Url): (s: string)
    requires RootedPath(u.path)
    ensures u.scheme != [] ==> HasPrefix(s, u.scheme + ":")
    ensures HasAuthority(u) ==> s == SchemePart(u) + ("//" + u.host + u.path + QueryPart(u))
    ensures !HasAuthority(u) ==> s == SchemePart(u) + (u.path + QueryPart(u))
    ensures u.scheme == [] && u.host == [] ==> s == u.path + QueryPart(u)
  {
    SchemePart(u) + HierPart(u)
  }

  /** `scheme:`, or nothing for a URL without a scheme. */
  function SchemePart(u: Url): string
  {
    if u.scheme != [] then u.scheme + ":" else ""
  }

  /** Everything url.URL.String prints after `scheme:`. */
  function HierPart(u: Url): string
  {
    (if HasAuthority(u) then "//" + u.host else "") + u.path + QueryPart(u)
  }

  /** `?query` when there is a query or a bare `?`, then `#fragment` when
      there is a fragment. */
  function QueryPart(u: Url): string
  {
    (if u.forceQuery || u.rawQuery != [] then "?" + u.rawQuery else "")
      + (if u.fragment != [] then "#" + u.fragment else "")
  }

  /** The path of the websocket endpoints; the session token follows it. */
  const WebsocketPathPrefix := "/socket.io/1/websocket/"

  /** The websocket endpoint path for a session token. */
  function SocketPath(token: string): (p: string)
    ensures HasPrefix(p, WebsocketPathPrefix)
    ensures p[|WebsocketPathPrefix|..] == token
    ensures RootedPath(p)
  {
    WebsocketPathPrefix + token
  }

  /** The address Connect dials: the handshake URL with its path replaced
      by the token's websocket path, printed, and its first occurrence of
      the URL scheme replaced by the websocket scheme. */
  function DialUrl(u: Url, token: string): string
  {
    var withToken := u.(path := SocketPath(token));
    ReplaceFirst(UrlString(withToken), u.scheme, WsScheme(u.scheme))
  }

  /** The first occurrence of a non-empty scheme in the printed URL is the
      scheme at its front, so the dial address is the websocket scheme, `:`,
      and the rest of the URL. The empty scheme matches at the very start,
      so without a scheme `ws` is glued in front with no `:`. */
  lemma DialUrlPrinted(u: Url, token: string)
    ensures u.scheme != [] ==> DialUrl(u, token) == WsScheme(u.scheme) + ":" + HierPart(u.(path := SocketPath(token)))
    ensures u.scheme == [] ==> DialUrl(u, token) == "ws" + HierPart(u.(path := SocketPath(token)))
  {
    var withToken := u.(path := SocketPath(token));
    var rest := HierPart(withToken);
    if u.scheme != [] {
      assert UrlString(withToken) == u.scheme + (":" + rest);
      ReplacePrefix(u.scheme, ":" + rest, WsScheme(u.scheme));
    } else {
      assert UrlString(withToken) == [] + rest;
      ReplacePrefix([], rest, "ws");
    }
  }

  /** For a URL with a scheme, the dial address is the same URL under the
      websocket scheme: `ws:` or `wss:`, then `//host` unless the host was
      omitted, the token's path, and the query and fragment. */
  lemma DialUrlSwapsScheme(u: Url, token: string)
    requires u.scheme != []
    ensures !(u.omitHost && u.host == []) ==>
              DialUrl(u, token) == WsScheme(u.scheme) + ":" + ("//" + u.host + SocketPath(token) + QueryPart(u))
    ensures u.omitHost && u.host == [] ==>
              DialUrl(u, token) == WsScheme(u.scheme) + ":" + (SocketPath(token) + QueryPart(u))
  {
    DialUrlPrinted(u, token);
    HierPartWithToken(u, token);
  }

  /** For a URL without a scheme, `ws` is glued in front of what the URL
      prints: `ws//host/...` when there is a host, and `ws/socket.io/...`
      when there is none, since such a URL prints without `//`. */
  lemma DialUrlWithoutScheme(u: Url, token: string)
    requires u.scheme == []
    ensures u.host != [] ==> DialUrl(u, token) == "ws" + ("//" + u.host + SocketPath(token) + QueryPart(u))
    ensures u.host == [] ==> DialUrl(u, token) == "ws" + (SocketPath(token) + QueryPart(u))
  {
    DialUrlPrinted(u, token);
    HierPartWithToken(u, token);
  }

  /** What the URL prints after its scheme once the token's path is set. */
  lemma HierPartWithToken(u: Url, token: string)
    ensures var h := HierPart(u.(path := SocketPath(token)));
            && (HasAuthority(u) ==> h == "//" + u.host + SocketPath(token) + QueryPart(u))
            && (!HasAuthority(u) ==> h == SocketPath(token) + QueryPart(u))
  {
    var w := u.(path := SocketPath(token));
    assert HasAuthority(w) == HasAuthority(u) && QueryPart(w) == QueryPart(u);
  }

  /** What the websocket's NextReader and the ReadAll of its reader
      produce: a failure to get a message, or a message with its text flag
      and its body (None when reading the body fails). */
  datatype Inbound = ReadFailed(err: Error) | Received(isText: bool, body: Option<string>)

  /** GetNextMsg: the transport's error is passed on; a binary message, a
      body that cannot be read and an empty text are each refused with
      their own error, checked in that order; anything else is the text. */
  function GetNextMsg(next: Inbound): (r: Result<string>)
    ensures r.Ok? <==> next.Received? && next.isText && next.body.Some? && next.body.value != []
    ensures r.Ok? ==> r.value == next.body.value && |r.value| > 0
    ensures next.ReadFailed? ==> r == Err(next.err)
    ensures next.Received? && !next.isText ==> r == Err(TransportOnlySupportsText)
    ensures next.Received? && next.isText && next.body.None? ==> r == Err(TransportBufferError)
    ensures next.Received? && next.isText && next.body == Some([]) ==> r == Err(TransportEmptyPacket)
  {
    match next
    case ReadFailed(e) => Err(e)
    case Received(isText, body) =>
      if !isText then Err(TransportOnlySupportsText)
      else
        match body
        case None => Err(TransportBufferError)
        case Some(text) => if |text| == 0 then Err(TransportEmptyPacket) else Ok(text)
  }

  /** The outcome of Connect: the transport as Connect left it, and the
      started client or the error that stopped it. */
  datatype Connected = Connected(transport: WebsocketTransport, client: Result<Client>)

  /** The websocket dial: the error dialling an address gives, if any. */
  type Dialer = string -> Option<Error>

  /** Connect, given the handshake's outcome and the dialler. A failed
      handshake returns its error with the transport untouched. Otherwise
      the timings are derived from the handshake first, so they stay set
      even when the dial then fails; a successful dial starts a fresh
      client: alive, empty queue, empty ack table, the built-in hooks. */
  function Connect(t: WebsocketTransport, u: Url, handshake: Result<HandshakeResponse>, dial: Dialer): (r: Connected)
    ensures handshake.Err? ==> r == Connected(t, Err(handshake.error))
    ensures handshake.Ok? ==> r.transport == ApplySession(t, handshake.value)
    ensures r.client.Ok? <==> handshake.Ok? && dial(DialUrl(u, handshake.value.token)).None?
    ensures r.client.Err? && handshake.Ok? ==> r.client.error == dial(DialUrl(u, handshake.value.token)).value
    ensures r.client.Ok? ==> r.client.value == NewClient() && Valid(r.client.value.conn)
  {
    match handshake
    case Err(e) => Connected(t, Err(e))
    case Ok(hr) =>
      var configured := ApplySession(t, hr);
      match dial(DialUrl(u, hr.token))
      case Some(e) => Connected(configured, Err(e))
      case None => Connected(configured, Ok(NewClient()))
  }
}
